=== FILE: README.md ===
# Query plans of a teaching relational database, in Dafny

This project models the plan-building core of the query layer of a small
teaching database. It covers four pieces of code:

- **The SELECT plan compiler.** It turns a parsed statement (table names,
  output column names, predicate groups) into a tree of relational
  iterators. It does the following, in order:
  - checks that every table exists;
  - builds a column-to-index map across the tables;
  - pushes column-versus-literal predicates down to the table leaves, as a
    key scan when the column is indexed and as a one-predicate Selection
    otherwise;
  - joins the tables in statement order, picking outer and inner by
    comparing adjacent catalog row counts;
  - stacks the remaining predicate groups as Selections over the join;
  - puts a Projection on top.
- **The INSERT plan.** It appends the record to the table's heap file, adds
  one (as a 32-bit Java `int`) to the table's row count in the catalog
  relation, and adds one hash-index entry per index descriptor. These happen
  in that order, with no rollback.
- **The Selection operator.** It holds a child iterator, a predicate list and
  a one-tuple lookahead cache.
- **The Projection operator.** It holds a child iterator and a field-position
  list.

## How things are represented

- **Operators** are immutable records, and every iterator call is a pure
  function from state to state:
  - `Selections.HasNext` returns the answer and the new state;
  - `Selections.GetNext` returns the tuple, or `None`, and the new state.
- **Draining** (`Run`) means calling `hasNext` then `getNext` until `hasNext`
  is false.
- **`Pending`** is the abstraction function for the tuples an operator still
  has to hand out.
- **Leaf scans** (heap-file scans, key scans) are abstract `Cursors.Cursor`
  values: a schema, the tuples the scan produces and a position.
- **Plans** are an algebraic datatype `Plans.Plan`:
  - `Scan`, `KeyScanLeaf` for the two leaf kinds;
  - `Filter` for a Selection;
  - `Join` for the nested-loop join;
  - `Project` for a Projection.

  `Plans.SchemaOf` computes the schema a plan produces. A join concatenates
  the outer schema, then the inner.
- **Compiler errors** are a `Result`:
  - an unknown table, reported before anything else;
  - an empty table list, where the Java calls `get(0)` on an empty list;
  - a table with no catalog row when a row count is needed, where the Java
    dereferences `null`;
  - an unknown output column.

Where the code and its documentation disagree, the model follows the code:

- **A Selection keeps a tuple when ANY of its predicates holds.** Its
  `hasNext` and `getNext` return on the first predicate that evaluates true.
  The class comment says the predicates are combined with AND.
  `Selections.Passes` and `Selections.MatchingMembership` state the OR.
- **A pushed non-indexed predicate wraps the table's ORIGINAL scan.** This is
  the loop variable of the enhanced `for` (src/query/Select.java:90 and
  125-126), not the table's current leaf. So the leaf a table ends with is
  built from the last predicate pushed to it, and every literal-typed
  predicate still leaves the pending groups.
  `SelectProperties.LastPushWins` shows a conjunct disappearing from the plan
  this way. This is listed under "## Findings" with a corrected leaf,
  `SelectCompiler.StackedLeaf`. `SelectCompiler.Compile` keeps the code's
  behaviour.
- **A key scan ignores the comparison operator.** A pushed predicate on an
  indexed column becomes a key scan on its right operand whatever its
  operator, so `id > 2` reads only the rows keyed 2
  (`SelectProperties.KeyScanWhateverOperator`). This is listed under
  "## Findings" with a corrected leaf, `SelectCompiler.EqualityLeaf`.
  `SelectCompiler.Compile` keeps the code's behaviour.
- **The INSERT plan updates the row count before it adds index entries.**
- **Predicates that were already applied are recognised by their text form,
  not by identity.** The text and the schema validation are parameters
  (`SelectCompiler.Env`).
- **When no catalog row names the table, the row-count update changes the
  last row.** The scan runs off the end and the last row it read is updated
  (`InsertPlan.CountUpdateWithoutRowBumpsLast`).

## Definitions and the members that state their contracts

Some definitions model code directly but carry no `ensures` of their own.
Their properties are stated by the members named here, each of which has a
row under "## Model".

| definition | source | contract stated by |
|---|---|---|
| SelectCompiler.PutAll | src/query/Select.java:70-72 | SelectCompiler.PutAllShadows |
| SelectCompiler.ColumnIndexesFrom | src/query/Select.java:65-74 | SelectCompiler.ColumnIndexesFromShadows |
| SelectCompiler.ColumnIndexes | src/query/Select.java:64-74 | SelectCompiler.ColumnIndexesShadow |
| SelectCompiler.PushedLeaf | src/query/Select.java:112-129 | SelectProperties.LeafChoice, CompiledLeafChoice |
| SelectCompiler.LeafAfter | src/query/Select.java:89-150 | SelectCompiler.PushDownFrom, SelectProperties.LeafChoice, CompiledLeafChoice |
| SelectCompiler.PushPass | src/query/Select.java:92-145 | SelectCompiler.PushPassShape, PushPassInOrder, PushPassRecords, PushPassComplete, PushPassRemoved, PushPassAppliesOnce |
| SelectCompiler.RemoveFirst | src/query/Select.java:135-136 | SelectCompiler.RemoveFirstAfter, RemoveFirstAbsent |
| SelectCompiler.StripPass | src/query/Select.java:94-147 | SelectCompiler.StripPassLiteralStep, StripPassColumnStep, StripPassFirst, StripPassClean |
| SelectCompiler.StripPasses | src/query/Select.java:89-150 | SelectCompiler.StripPassesClean, StripPassesLeaveColumns |
| SelectCompiler.JoinPrefix | src/query/Select.java:152-173 | SelectCompiler.JoinPrefixFailure, JoinPrefixStep, JoinOrderRule, JoinStep, JoinUsesEachLeafOnce, JoinSchemaTracksPlan |
| SelectCompiler.StackFilters | src/query/Select.java:182-189 | SelectCompiler.StackFiltersLayers |
| SelectCompiler.FilterChain | src/query/Select.java:176-195 | SelectCompiler.FilterChainShape, SelectProperties.FilterChainOverPending |
| SelectCompiler.StackedLeaf | src/query/Select.java:124-126 | SelectCompiler.StackedLeafKeepsEveryPush (the corrected leaf) |
| SelectCompiler.EqualityLeaf | src/query/Select.java:112-120 | SelectCompiler.EqualityLeafKeepsOperator (the corrected leaf) |
| Selections.Passes | src/relop/Selection.java:66-77 | Selections.MatchingMembership, MatchingWithoutPredicates |
| Selections.Matching | src/relop/Selection.java:61-107 | Selections.MatchingMembership, MatchingIsSubsequence, MatchingStep |
| Selections.Pending | src/relop/Selection.java:61-107 | Selections.HasNext, GetNext, PendingOfCache, RunYieldsPending |
| Selections.Run | src/relop/Selection.java:61-107 | Selections.RunYieldsPending, RunOfFresh |
| Projections.HasNext | src/relop/Projection.java:65-67 | Projections.GetNext, RunProjectsEachTuple |
| Projections.Run | src/relop/Projection.java:65-86 | Projections.RunProjectsEachTuple, RunCountsAndFields |
| InsertPlan.KeyFor | src/query/Insert.java:60 | InsertPlan.AddEntries, InsertPlan.Execute |
| Plans.SchemaOf | src/query/Select.java:152-173 | SelectCompiler.JoinSchemaTracksPlan, SelectProperties.CompiledPlanWellTyped |

## Model

| member | source | states |
|---|---|---|
| Selections.Construct | src/relop/Selection.java:19-25 | a new Selection is open, keeps the child and predicates, and has no cached tuple |
| Selections.Seek | src/relop/Selection.java:66-80 | the hasNext loop answers true iff some remaining child tuple passes; with predicates it caches the first such tuple and the passing tuples after the new position are the rest; with none it pulls nothing; at the end of the child it clears the cache |
| Selections.SeekStopsPastMatch | src/relop/Selection.java:66-80 | with predicates, a true answer leaves the child just past the first passing tuple, which is the one cached; every tuple pulled before it fails every predicate |
| Selections.HasNext | src/relop/Selection.java:61-81 | answers whether any tuple is still to come (cached or a passing child tuple), and leaves what is still to come unchanged; a false answer leaves the cache empty and the child exhausted |
| Selections.MatchingStep | src/relop/Selection.java:66-78 | the passing tuples of the child are its next tuple if that passes, then the passing tuples after it |
| Selections.PendingOfCache | src/relop/Selection.java:90-93 | a cached tuple is the first of what is pending, ahead of the child's passing tuples |
| Selections.Fetch | src/relop/Selection.java:95-106 | the getNext loop returns the first remaining child tuple that passes, and the passing tuples after the new position are the rest; or it returns nothing with the child exhausted |
| Selections.FetchStopsPastMatch | src/relop/Selection.java:95-106 | a returned tuple is the one just before the child's new position and passes; every tuple pulled before it fails every predicate |
| Selections.GetNext | src/relop/Selection.java:89-107 | returns exactly the first pending tuple and drops it from what is pending, or returns nothing when nothing is pending; the cache is empty afterwards |
| Selections.Close | src/relop/Selection.java:53-56 | closes the child and the operator, and consumes nothing: the predicates, the cached tuple and the child's whole stream (tuples, schema, position) are kept |
| Selections.Restart | src/relop/Selection.java:38-41 | re-opens the child from its first tuple over the same stream and schema and reopens the operator, keeping the predicates and the cached tuple: it is the fresh operator of `RestartFresh` with the old cache put back |
| Selections.RestartFresh | src/relop/Selection.java:35-41 | restart as documented: the same as constructing a new Selection over the restarted child |
| Selections.RunYieldsPending | src/relop/Selection.java:61-107 | draining through hasNext/getNext yields exactly the pending tuples, in order |
| Selections.RunOfFresh | src/relop/Selection.java:19-25 | a new Selection yields exactly the child's remaining tuples that pass, in order |
| Selections.MatchingMembership | src/relop/Selection.java:66-77 | a tuple is in the output iff it is in the input and passes; passing means at least one predicate holds, or there are no predicates |
| Selections.MatchingWithoutPredicates | src/relop/Selection.java:67-69 | with no predicates every child tuple comes out unchanged |
| Selections.MatchingIsSubsequence | src/relop/Selection.java:66-78 | the output keeps the child's order: it is a subsequence of the input |
| Selections.HasNextIsIdempotent | src/relop/Selection.java:61-64 | a second hasNext answers the same and changes nothing |
| Selections.GetNextServesLookahead | src/relop/Selection.java:89-94 | after a successful hasNext, getNext returns exactly the tuple hasNext cached, and the cache is empty afterwards |
| Selections.RestartRepeatsLookahead | src/relop/Selection.java:38-41 | counterexample: after hasNext caches the only tuple, restart and a full drain yield that tuple twice |
| Selections.RestartFreshReplays | src/relop/Selection.java:35-37 | after the corrected restart, draining yields the child's whole passing sequence from the start, as a new operator would |
| Projections.Pick | src/relop/Projection.java:21-25 | one output element per listed position, in list order, each the input element at that position (repeats allowed) |
| Projections.FirstOutOfRange | src/relop/Projection.java:22-24 | finds the first listed position outside the input schema; none exists iff all are in range |
| Projections.Construct | src/relop/Projection.java:17-29 | succeeds iff every field number is in range; the output schema copies the child's field at each listed position; a Projection built over a valid child is valid; otherwise it reports the first bad position |
| Projections.GetNext | src/relop/Projection.java:75-86 | returns the child's next tuple reduced to the listed fields and advances the child by one, or returns nothing and changes nothing when the child is exhausted |
| Projections.Close | src/relop/Projection.java:57-60 | closes the child and the operator, consumes nothing, and keeps the field list and the output schema |
| Projections.Restart | src/relop/Projection.java:39-45 | re-opens the child from its first tuple and reopens the operator, keeping the field list and the output schema: the result is what the constructor builds over the restarted child |
| Projections.RunProjectsEachTuple | src/relop/Projection.java:65-86 | draining yields every remaining child tuple, projected, in order |
| Projections.RunCountsAndFields | src/relop/Projection.java:3-6 | as many output tuples as input tuples (no duplicate elimination); output field k of tuple i is input field fields[k] |
| Projections.RunAfterRestart | src/relop/Projection.java:39-45 | after restart, draining yields every child tuple from the first, projected, in order |
| Projections.IdentityPick | src/query/Select.java:205-210 | the position list 0..n-1 leaves a schema or tuple unchanged |
| Catalogs.Succ32 | src/query/Insert.java:85-86 | adding one to a Java int: one more below the maximum, wraps to the minimum at the maximum |
| Catalogs.FirstRow | src/query/Select.java:219-224 | the first catalog row with the table's name; none iff no row has it |
| Catalogs.Cardinality | src/query/Select.java:217-228 | the row count read for a table is the recCount of the first catalog row with its name; none iff no row has it |
| SelectCompiler.FirstMissing | src/query/Select.java:60-62 | the first table the catalog does not know; none iff all exist |
| SelectCompiler.LastOn | src/query/Select.java:70-72 | reference for the index map: the last descriptor on a column, if any |
| SelectCompiler.PutAllShadows | src/query/Select.java:70-72 | putting descriptors one by one leaves each column mapped to its last descriptor, others untouched |
| SelectCompiler.ColumnIndexesFromShadows | src/query/Select.java:65-74 | the map-building loop over the remaining tables agrees with the last-descriptor reference |
| SelectCompiler.ColumnIndexesShadow | src/query/Select.java:65-74 | the column-to-index map holds, for each column, the last descriptor across all tables: later tables shadow earlier ones |
| SelectCompiler.PushPassShape | src/query/Select.java:92-145 | one table's pass: what it pushed is, in statement order, the reference list of applicable predicates whose text was not applied before, the first per text; the leaf is the access path of the last of them (or the leaf unchanged) |
| SelectCompiler.PushPassInOrder | src/query/Select.java:92-133 | a pass pushes exactly the reference list: literal-typed predicates valid for the table, in statement order, skipping texts applied before or already seen |
| SelectCompiler.PushPassAppliesOnce | src/query/Select.java:105-133 | within a pass each text is applied at most once and never one applied before; the applied set grows by exactly the pushed texts; every valid literal-typed predicate ends up applied |
| SelectCompiler.PushPassRecords | src/query/Select.java:105-133 | the texts a pass adds to the applied set are exactly those of the predicates it pushed, none applied before and no two alike |
| SelectCompiler.PushPassComplete | src/query/Select.java:101-136 | a pass forgets no applied text, and every literal-typed predicate valid for the table has its text applied by the end |
| SelectCompiler.PushPassRemoved | src/query/Select.java:101-133 | after a pass the applied texts are the earlier ones plus the text of every literal-typed predicate valid for the table |
| SelectCompiler.PushDownFrom | src/query/Select.java:89-150 | one leaf per table, each built from that table's scan and its own pushed predicates, all literal-typed and valid for that table |
| SelectCompiler.PushDownAppliesOnce | src/query/Select.java:87-150 | across all tables each text is applied at most once; a literal-typed predicate valid for some table is applied by the end |
| SelectCompiler.PushDownCons | src/query/Select.java:89-150 | the passes from table k on are table k's pass followed by the later tables' passes, which start from the texts it applied |
| SelectCompiler.PushDownRecords | src/query/Select.java:87-150 | the applied set at the end is the starting set plus the texts of everything pushed, all new and distinct |
| SelectCompiler.PushDownComplete | src/query/Select.java:87-150 | nothing applied is forgotten, and every literal-typed predicate valid for one of the tables is applied by the end |
| SelectCompiler.PushDownInOrder | src/query/Select.java:89-150 | table i's pass pushes, in statement order, the literal-typed predicates valid for it, the first per text, leaving out every text valid for an earlier table |
| SelectCompiler.RemoveFirstAbsent | src/query/Select.java:135-136 | removing a predicate that is not in the list leaves it unchanged |
| SelectCompiler.RemoveFirstAfter | src/query/Select.java:135-136 | removal drops the first equal element and keeps the rest in order |
| SelectCompiler.StripPassLiteralStep | src/query/Select.java:101-137 | a literal-typed predicate is removed from the pending copy of its group |
| SelectCompiler.StripPassColumnStep | src/query/Select.java:138-141 | a column comparison stays in the pending copy of its group |
| SelectCompiler.StripPassFirst | src/query/Select.java:94-147 | the first table's pass leaves each group holding exactly its column comparisons, in order |
| SelectCompiler.StripPassClean | src/query/Select.java:132-136 | a group holding no literal-typed predicate comes out of a pass unchanged: only predicates that were pushed are removed |
| SelectCompiler.StripPassesLeaveColumns | src/query/Select.java:89-150 | after one pass per table (at least one) a group holds exactly its column comparisons |
| SelectCompiler.StripPassesClean | src/query/Select.java:89-150 | later passes over a group without literal-typed predicates change nothing |
| SelectCompiler.ColumnComparisons | src/query/Select.java:138-141 | reference: the predicates of a group whose right operand is a column name or field number, and only those |
| SelectCompiler.PendingGroups | src/query/Select.java:77-84 | one pending group per statement group |
| SelectCompiler.PendingAreColumnComparisons | src/query/Select.java:89-150 | with at least one table, each pending group is exactly the group's column comparisons in order |
| SelectCompiler.Stat | src/query/Select.java:217-228 | the row count of the table's first catalog row, or MissingStatistics naming the table when there is none |
| SelectCompiler.FirstWithoutStats | src/query/Select.java:158-161 | the first of the first n tables with no catalog row; none iff all have one |
| SelectCompiler.JoinPrefixStep | src/query/Select.java:158-172 | one join step fails iff the running join failed or either compared table has no row count; the earlier failure, then table i-1, then table i is reported |
| SelectCompiler.JoinPrefixFailure | src/query/Select.java:152-173 | the running join fails iff two or more tables are joined and one of them has no row count, naming the first such table |
| SelectCompiler.JoinStep | src/query/Select.java:158-172 | each join step puts the new table's leaf and the running join under one Join node, in one order or the other |
| SelectCompiler.JoinOrderRule | src/query/Select.java:158-172 | when table i-1 has fewer rows than table i the running result is the outer input and its schema comes first; otherwise, ties included, table i is outer and its schema comes first |
| SelectCompiler.JoinUsesEachLeafOnce | src/query/Select.java:152-173 | the join tree's inputs are exactly the table leaves, each once |
| SelectCompiler.JoinSchemaTracksPlan | src/query/Select.java:152-173 | the running schema is the schema the running join tree produces |
| SelectCompiler.NonEmpty | src/query/Select.java:182-189 | keeps only non-empty groups, each from the input |
| SelectCompiler.StackFiltersLayers | src/query/Select.java:182-189 | the loop over later groups wraps one Filter per non-empty group, in order |
| SelectCompiler.FilterChainShape | src/query/Select.java:176-195 | the Filter chain is the join wrapped in one Filter per layer: group 0 always, later groups when non-empty, the always-true Filter when there are no groups |
| SelectCompiler.LayeredKeepsSchema | src/relop/Selection.java:19-25 | Selections keep their child's schema, so a Filter chain keeps the join's schema |
| SelectCompiler.LayeredAppend | src/query/Select.java:182-189 | adding Filter layers in two batches is adding them all at once |
| SelectCompiler.Identity | src/query/Select.java:206-209 | the list 0..n-1 |
| Relational.FieldNumber | src/query/Select.java:203 | a position found for a column name is within the schema and holds a field of that name |
| Relational.FieldNumberFirst | src/query/Select.java:203 | the position a column name maps to is the first field with that name; there is none iff no field has it |
| SelectCompiler.FirstUnknown | src/query/Select.java:202-204 | the first requested column the joined schema does not have; none iff all are known |
| SelectCompiler.Positions | src/query/Select.java:199-204 | each requested column's position in the joined schema, in request order; fails iff some column is unknown, naming the first one |
| SelectCompiler.ProjectionList | src/query/Select.java:198-210 | the identity list when no columns are requested; otherwise the requested columns' first positions; always within the joined schema |
| SelectCompiler.Compile | src/query/Select.java:54-212 | unknown tables are reported first, naming the first missing table in statement order; no tables is an error; a success has one leaf per table, a Projection root over the Filter chain, positions within the joined schema, and the output schema those positions pick |
| SelectProperties.CompiledStages | src/query/Select.java:54-212 | a successful compilation is push-down, then the join, then the Filter chain over the pending groups, then the projection list |
| SelectCompiler.CompileFromStages | src/query/Select.java:54-212 | conversely, when the tables exist, the join succeeds and the columns resolve, compilation succeeds with exactly those stages |
| SelectProperties.CompiledLeafChoice | src/query/Select.java:89-150 | a table's leaf is its scan iff its pass applied nothing; otherwise it is the access path of the LAST predicate applied, in statement order, among those valid for that table whose text no earlier table applied: a key scan keyed on its literal over the last index declared for its column, or a one-predicate Filter over the scan when the column has no index |
| SelectProperties.PushDownLog | src/query/Select.java:89-150 | in a whole push-down, table i's log is the reference list and its leaf is built from that log |
| SelectProperties.LeafChoice | src/query/Select.java:110-129 | a leaf is the scan iff nothing was pushed; otherwise the key scan over the last index declared for the last pushed predicate's column, or a Filter of that predicate over the scan |
| SelectProperties.CompiledPlanWellTyped | src/query/Select.java:152-212 | the joined schema is the join tree's schema, the Filter chain keeps it, and the root produces the output schema |
| SelectProperties.CompiledJoinCoversLeaves | src/query/Select.java:152-173 | every table's leaf enters the join tree exactly once |
| SelectProperties.PostJoinLayersCompareColumns | src/query/Select.java:135-141 | no literal-typed predicate remains in a post-join Filter |
| SelectProperties.FilterChainOverPending | src/query/Select.java:89-195 | the Filter chain over the pending groups is the join wrapped in the groups' column comparisons |
| SelectProperties.CompiledPostJoinFilters | src/query/Select.java:175-195 | in a compiled plan the Filters above the join hold exactly the column comparisons, one layer for group 0 and one per later non-empty group |
| SelectProperties.CompiledOutputColumns | src/query/Select.java:197-212 | no requested columns: the output schema is the joined schema; otherwise output field i is named after requested column i |
| SelectProperties.SmallerTableIsOuter | src/query/Select.java:155-173 | with A at 10 rows and B at 1000 and no predicates, A is the outer input and all fields are projected |
| SelectProperties.IndexedPointQuery | src/query/Select.java:110-120 | an equality on an indexed column becomes a key scan on the index keyed on the literal, and that predicate is not re-applied above the join |
| SelectProperties.KeyScanWhateverOperator | src/query/Select.java:110-120 | counterexample: `id op 2` on the indexed `id` compiles to the same plan for every operator, the key scan on 2, with the comparison applied nowhere |
| SelectCompiler.EqualityLeafKeepsOperator | src/query/Select.java:110-129 | corrected access path: a key scan exactly for an equality on an indexed column, the code's leaf for equalities, and otherwise a Filter applying the predicate itself |
| SelectProperties.RangeKeepsComparison | src/query/Select.java:110-120 | `id > 2` on Emp: the code builds the key scan on 2, the corrected leaf a Filter with `id > 2` over the scan |
| SelectProperties.LastPushWins | src/query/Select.java:124-126 | two literal predicates on one unindexed table: the leaf holds only the second, and the first appears nowhere in the plan |
| SelectCompiler.StackedLeafKeepsEveryPush | src/query/Select.java:123-129 | corrected push-down: with no indexed column among the pushes, the leaf is the scan under one Filter per pushed predicate, in push order |
| SelectProperties.StackedKeepsBothConjuncts | src/query/Select.java:123-129 | corrected push-down on the same statement: the leaf applies x = 1 and then y = 2 |
| SelectProperties.TwoPushes | src/query/Select.java:95-133 | one pass over two valid literal predicates with distinct texts pushes both, and the leaf is built from the second alone |
| SelectProperties.SmallerFirstJoin | src/query/Select.java:158-172 | with A at 10 rows and B at 1000, the running join over A's scan is the outer input of the join with B |
| InsertPlan.Prepare | src/query/Insert.java:34-46 | fails with UnknownTable iff the table does not exist; otherwise carries the table's catalog schema and index descriptors and the values |
| InsertPlan.StopRow | src/query/Insert.java:76-83 | the scan stops at the first row with the table's name, or at the last row when none has it |
| InsertPlan.UpdateCardinality | src/query/Insert.java:70-89 | fails iff the catalog relation is empty; otherwise only the row the scan stopped at changes, and its count goes up by one as a Java int |
| InsertPlan.CountUpdateReadAfterWrite | src/query/Insert.java:70-89 | when the table has a catalog row, the count read back for it is one more than before (wrapping at the int maximum), and every other table's count is unchanged |
| InsertPlan.CountUpdateWithoutRowBumpsLast | src/query/Insert.java:76-85 | when no catalog row has the table's name, the last row's count is the one increased |
| InsertPlan.AddedSnoc | src/query/Insert.java:57-63 | one more descriptor adds exactly its own entry, to the index it names |
| InsertPlan.IndexStep | src/query/Insert.java:57-63 | one loop step adds one entry (key, RID) to the descriptor's index and nothing else |
| InsertPlan.IndexAfterAdd | src/query/Insert.java:61-62 | adding entries to one index leaves every other index as it was |
| InsertPlan.AddEntries | src/query/Insert.java:55-64 | every index gains exactly the entries of its descriptors, keyed on the inserted value of the indexed column; at the first descriptor whose column has no value it stops, keeping the entries already added |
| InsertPlan.Execute | src/query/Insert.java:51-68 | the heap file grows by exactly the new record at the new RID and other files are unchanged; the row count is updated; the indexes gain one entry per descriptor; a later failure keeps the earlier changes |

## Left out

- Heap-file scans, key scans and the nested-loop join are not executed.
  Leaves are abstract cursors, and the join appears only as a plan node
  whose schema is the concatenation. Their code is not part of this model.
- Predicate evaluation, validation against a schema and the predicate text
  form are parameters. `Predicate.java` is not part of this model.
- Tuple byte encoding, `new Tuple(schema, values)` and its checks, and
  record ids beyond "the next slot of an append-only heap file" are left
  out. Hash-index buckets are left out too: an index is a multiset of
  (key, RID) entries.
- Schema.fieldNumber is taken to return the first field with the name
  (`Relational.FieldNumber`); Schema.java is not part of this model.
  Its "not found" result is modelled as the compile error UnknownColumn.
  In the Java it reaches the Projection constructor as -1 and fails there.
- The getTableCardinality scan is modelled as "first catalog row with the
  name". Its Selection over the catalog is not unfolded.
- Printing is left out: the "Done with" lines, execute's row counts and
  "1 rows inserted". Also left out are `explain` (unimplemented in the
  source), Select.execute's drive-and-close loop, and QueryCheck's messages.
  None of them changes the plan.
- The commented-out closing of replaced iterators is left out: nothing runs
  in the source.
- The recCount field is read as a Java int. The cast from the stored field
  value is not modelled.
- SelectCompiler.PendingGroups: its own contract gives only the number of
  groups. The content is stated by
  SelectCompiler.PendingAreColumnComparisons, which needs at least one
  table. With no tables, compilation fails before the groups are used.
- SelectCompiler.StackedLeafKeepsEveryPush: the corrected leaf still lets a
  push on an indexed column replace the leaf with a key scan, as the code
  does. The lemma therefore speaks only of pushes on unindexed columns.
  Stacking a key scan under earlier Filters would need a different access
  path.
- A Projection's child is an abstract cursor, not a Selection. Draining a
  Projection stacked on a Selection is therefore not composed in one lemma.

## Findings

| source | as written | input that shows it | evidently intended | confidence | as-written member | corrected member |
|---|---|---|---|---|---|---|
| src/query/Select.java:123-129 | a pushed predicate on a column without an index builds `new Selection(i, p)` over the table's original scan `i`, not over the table's current leaf; every literal-typed predicate still leaves its pending group | table A(x, y) with no index, `SELECT * FROM A WHERE x = 1 AND y = 2`: A's leaf is the Selection `y = 2` over the scan, and `x = 1` is applied nowhere in the plan | each push wraps the table's current leaf, so the leaf applies both conjuncts | not executed | SelectProperties.LastPushWins | SelectCompiler.StackedLeafKeepsEveryPush |
| src/query/Select.java:110-120 | a pushed predicate on an indexed column becomes `new KeyScan(s, hi, new SearchKey(p.getRight()), …)` whatever the predicate's operator, and the predicate then leaves its pending group | table Emp(id, name, dept) with a hash index on `id`, `SELECT name FROM Emp WHERE id > 2`: the plan is the key scan on 2, exactly the plan of `id = 2`, so it returns the rows with id 2 and none with id above 2 | a key scan only for an equality; any other comparison applied as a Selection | not executed | SelectProperties.KeyScanWhateverOperator | SelectCompiler.EqualityLeafKeepsOperator |
| src/relop/Selection.java:38-41 | restart re-opens the child and clears `closed` but keeps `curr_tuple`, the tuple a previous hasNext cached | one child tuple t that passes; call hasNext (t is cached), then restart, then drain: t comes out twice | restart "as if it were just constructed": the cache is cleared, and draining yields each passing tuple once | not executed | Selections.RestartRepeatsLookahead | Selections.RestartFreshReplays |

=== FILE: catalogs.dfy ===
/** The part of the system catalog the query layer reads and writes: per table its
    schema and index descriptors, and the catalog relation of (relName, recCount)
    rows that holds the row-count statistic. */
module Catalogs {
  import opened Wrappers
  import opened Relational

  /** A Java `int`. */
  newtype int32 = x: int | -0x8000_0000 <= x < 0x8000_0000

  /** `x + 1` on a Java `int`: wraps from the largest value to the smallest. */
  function Succ32(x: int32): (r: int32)
    ensures x < 0x7fff_ffff ==> r as int == x as int + 1
    ensures x == 0x7fff_ffff ==> r == -0x8000_0000
  {
    if x == 0x7fff_ffff then -0x8000_0000 else x + 1
  }

  /** One row of the catalog relation. */
  datatype RelRow = RelRow(relName: string, recCount: int32)

  datatype TableInfo = TableInfo(schema: Schema, indexes: seq<IndexDesc>)

  datatype Catalog = Catalog(tables: map<string, TableInfo>, rel: seq<RelRow>)

  /** The table-existence check. */
  predicate TableExists(cat: Catalog, name: string) {
    name in cat.tables
  }

  function TableSchema(cat: Catalog, name: string): Option<Schema> {
    if name in cat.tables then Some(cat.tables[name].schema) else None
  }

  /** Position of the first catalog row named `name`. */
  function FirstRow(rows: seq<RelRow>, name: string): (r: Option<nat>)
    ensures r.Some? ==> r.value < |rows| && rows[r.value].relName == name
    ensures r.Some? ==> forall i :: 0 <= i < r.value ==> rows[i].relName != name
    ensures r.None? <==> forall i :: 0 <= i < |rows| ==> rows[i].relName != name
  {
    if |rows| == 0 then None
    else if rows[0].relName == name then Some(0)
    else
      match FirstRow(rows[1..], name)
      case None => None
      case Some(k) => Some(k + 1)
  }

  /** The cardinality estimate: the recCount of the first catalog row named
      `name`, or None (where the Java dereferences null) when there is none. */
  function Cardinality(rows: seq<RelRow>, name: string): (r: Option<int32>)
    ensures r.None? <==> forall i :: 0 <= i < |rows| ==> rows[i].relName != name
    ensures r.Some? ==> exists i :: 0 <= i < |rows| && rows[i].relName == name && rows[i].recCount == r.value
    ensures r.Some? ==> FirstRow(rows, name).Some? && r.value == rows[FirstRow(rows, name).value].recCount
  {
    match FirstRow(rows, name)
    case None => None
    case Some(k) => Some(rows[k].recCount)
  }
}

=== FILE: cursors.dfy ===
/** An abstract leaf cursor: a file scan or a key scan reduced to the schema it
    produces, the tuples it yields, how many it has handed out and an open flag. */
module Cursors {
  import opened Relational

  datatype Cursor = Cursor(schema: Schema, tuples: seq<Tuple>, pos: nat, open: bool) {

    /** The position is inside the sequence and every tuple fits the schema. */
    predicate Valid() {
      && pos <= |tuples|
      && forall t :: t in tuples ==> |t| == |schema|
    }

    predicate HasNext() {
      pos < |tuples|
    }

    /** The tuples not yet handed out. */
    function Remaining(): seq<Tuple>
      requires Valid()
    {
      tuples[pos..]
    }

    function Head(): Tuple
      requires Valid() && HasNext()
    {
      tuples[pos]
    }

    /** The cursor after handing out its next tuple. */
    function Next(): (c: Cursor)
      requires Valid() && HasNext()
      ensures c.Valid() && c.schema == schema && c.tuples == tuples && c.open == open
      ensures Remaining() == [Head()] + c.Remaining()
    {
      assert tuples[pos..] == [tuples[pos]] + tuples[pos + 1..];
      Cursor(schema, tuples, pos + 1, open)
    }

    /** Re-opens the underlying scan from the beginning. */
    function Restart(): (c: Cursor)
      requires Valid()
      ensures c.Valid() && c.open && c.Remaining() == tuples
    {
      Cursor(schema, tuples, 0, true)
    }

    function Close(): (c: Cursor)
      requires Valid()
      ensures c.Valid() && !c.open && c.Remaining() == Remaining()
    {
      Cursor(schema, tuples, pos, false)
    }
  }

  /** A freshly opened cursor over `ts`. */
  function Open(s: Schema, ts: seq<Tuple>): (c: Cursor)
    requires forall t :: t in ts ==> |t| == |s|
    ensures c.Valid() && c.open && c.Remaining() == ts
  {
    Cursor(s, ts, 0, true)
  }
}

=== FILE: insert_plan.dfy ===
/** The INSERT plan: checks the table at construction, then on execution appends
    one record to the table's heap file, adds one to the table's row count in the
    catalog relation, and adds one (key, RID) entry per index descriptor. The three
    steps run in that order and nothing is rolled back when a later one fails. */
module InsertPlan {
  import opened Wrappers
  import opened Relational
  import opened Catalogs

  /** A record identifier: the slot the record occupies in its heap file. */
  datatype Rid = Rid(slot: nat)

  datatype Entry = Entry(key: Value, rid: Rid)

  /** Heap files by name, hash indexes by name (each a multiset of entries) and
      the catalog. A name with no file or index yet reads as empty. */
  datatype Db = Db(catalog: Catalog, heaps: map<string, seq<Tuple>>, indexes: map<string, multiset<Entry>>)

  datatype InsertError =
    | UnknownTable(name: string)
    | NoCatalogRows
    | IndexColumnMissing(index: string, column: string)

  /** The constructed plan: target table, its schema and index descriptors as the
      catalog gave them, and the values to insert. */
  datatype Insert = Insert(table: string, schema: Schema, descs: seq<IndexDesc>, values: Tuple)

  /** The state after `execute`, the new record's RID, and the failure that cut the
      execution short, if any. */
  datatype Outcome = Outcome(db: Db, rid: Rid, error: Option<InsertError>)

  /** The constructor: fails when the table does not exist; it reads the catalog
      and touches nothing. */
  function Prepare(cat: Catalog, table: string, values: Tuple): (r: Result<Insert, InsertError>)
    ensures r.Failure? <==> !TableExists(cat, table)
    ensures r.Failure? ==> r.error == UnknownTable(table)
    ensures r.Success? ==> r.value == Insert(table, cat.tables[table].schema, cat.tables[table].indexes, values)
  {
    if table in cat.tables then
      Success(Insert(table, cat.tables[table].schema, cat.tables[table].indexes, values))
    else
      Failure(UnknownTable(table))
  }

  function Heap(db: Db, name: string): seq<Tuple> {
    if name in db.heaps then db.heaps[name] else []
  }

  function Index(indexes: map<string, multiset<Entry>>, name: string): multiset<Entry> {
    if name in indexes then indexes[name] else multiset{}
  }

  /** The catalog scan: it stops at the first row named `name`, or runs off the
      end leaving the last row scanned. */
  function StopRow(rows: seq<RelRow>, name: string): (r: nat)
    requires |rows| > 0
    ensures r < |rows|
    ensures forall j :: 0 <= j < r ==> rows[j].relName != name
    ensures rows[r].relName == name || r == |rows| - 1
  {
    if rows[0].relName == name || |rows| == 1 then 0
    else 1 + StopRow(rows[1..], name)
  }

  /** `UpdateTableCardinality`: adds one (as a Java int) to the recCount of the row
      the scan stopped at; with no rows at all the Java dereferences null. */
  function UpdateCardinality(rows: seq<RelRow>, name: string): (r: Result<seq<RelRow>, InsertError>)
    ensures r.Failure? <==> |rows| == 0
    ensures r.Failure? ==> r.error == NoCatalogRows
    ensures r.Success? ==>
              && |r.value| == |rows|
              && var k := StopRow(rows, name);
                 && r.value[k] == rows[k].(recCount := Succ32(rows[k].recCount))
                 && forall j :: 0 <= j < |rows| && j != k ==> r.value[j] == rows[j]
  {
    if |rows| == 0 then Failure(NoCatalogRows)
    else
      var k := StopRow(rows, name);
      Success(rows[k := rows[k].(recCount := Succ32(rows[k].recCount))])
  }

  /** The key an index descriptor takes from the inserted values: the value at the
      schema position of its column, if the column and the value exist. */
  function KeyFor(ins: Insert, d: IndexDesc): Option<Value> {
    match FieldNumber(ins.schema, d.columnName)
    case Some(k) => if k < |ins.values| then Some(ins.values[k]) else None
    case None => None
  }

  predicate KeysResolve(ins: Insert, ds: seq<IndexDesc>) {
    forall j :: 0 <= j < |ds| ==> KeyFor(ins, ds[j]).Some?
  }

  /** Reference: the entries the descriptors `ds` add to the index called `name`. */
  function Added(ins: Insert, ds: seq<IndexDesc>, rid: Rid, name: string): multiset<Entry>
    requires KeysResolve(ins, ds)
    decreases |ds|
  {
    if |ds| == 0 then multiset{}
    else
      var d := ds[|ds| - 1];
      Added(ins, ds[..|ds| - 1], rid, name)
        + (if d.indexName == name then multiset{Entry(KeyFor(ins, d).value, rid)} else multiset{})
  }

  /** `after` is `before` with the entries of the descriptors `ds` added. */
  ghost predicate IndexesAfter(before: map<string, multiset<Entry>>, after: map<string, multiset<Entry>>,
                         ins: Insert, ds: seq<IndexDesc>, rid: Rid)
  {
    && KeysResolve(ins, ds)
    && forall n :: Index(after, n) == Index(before, n) + Added(ins, ds, rid, n)
  }

  lemma {:induction false} IndexesAfterNone(idx: map<string, multiset<Entry>>, ins: Insert, ds: seq<IndexDesc>, rid: Rid)
    requires |ds| == 0
    ensures IndexesAfter(idx, idx, ins, ds, rid)
  {
    forall n ensures Index(idx, n) == Index(idx, n) + Added(ins, ds, rid, n) {
      assert Added(ins, ds, rid, n) == multiset{};
    }
  }

  /** The entries of `ds + [d]` are those of `ds` and the one of `d`. */
  lemma {:induction false} AddedSnoc(ins: Insert, ds: seq<IndexDesc>, d: IndexDesc, rid: Rid, name: string)
    requires KeysResolve(ins, ds + [d])
    ensures KeyFor(ins, d).Some? && KeysResolve(ins, ds)
    ensures Added(ins, ds + [d], rid, name)
         == Added(ins, ds, rid, name)
            + (if d.indexName == name then multiset{Entry(KeyFor(ins, d).value, rid)} else multiset{})
  {
    var ds' := ds + [d];
    assert ds'[..|ds'| - 1] == ds;
    assert ds'[|ds'| - 1] == d;
    assert forall j :: 0 <= j < |ds| ==> ds[j] == ds'[j];
  }

  /** One loop step: the entry for descriptor `d` extends the added entries by `d`. */
  lemma {:induction false} IndexStep(before: map<string, multiset<Entry>>, idx: map<string, multiset<Entry>>,
                                     ins: Insert, ds: seq<IndexDesc>, d: IndexDesc, rid: Rid)
    requires IndexesAfter(before, idx, ins, ds, rid)
    requires KeyFor(ins, d).Some?
    ensures IndexesAfter(before, idx[d.indexName := Index(idx, d.indexName) + multiset{Entry(KeyFor(ins, d).value, rid)}],
                         ins, ds + [d], rid)
  {
    var ds' := ds + [d];
    KeysResolveSnoc(ins, ds, d);
    var e := multiset{Entry(KeyFor(ins, d).value, rid)};
    var idx' := idx[d.indexName := Index(idx, d.indexName) + e];
    forall n ensures Index(idx', n) == Index(before, n) + Added(ins, ds', rid, n) {
      AddedSnoc(ins, ds, d, rid, n);
      IndexAfterAdd(idx, d.indexName, e, n);
      assert Index(idx, n) == Index(before, n) + Added(ins, ds, rid, n);
    }
  }

  lemma KeysResolveSnoc(ins: Insert, ds: seq<IndexDesc>, d: IndexDesc)
    requires KeysResolve(ins, ds) && KeyFor(ins, d).Some?
    ensures KeysResolve(ins, ds + [d])
  {
    var ds' := ds + [d];
    forall j | 0 <= j < |ds'| ensures KeyFor(ins, ds'[j]).Some? {
      if j < |ds| { assert ds'[j] == ds[j]; }
    }
  }

  /** Adding `e` to the index named `name` leaves every other index as it was. */
  lemma IndexAfterAdd(idx: map<string, multiset<Entry>>, name: string, e: multiset<Entry>, n: string)
    ensures Index(idx[name := Index(idx, name) + e], n) == Index(idx, n) + (if name == n then e else multiset{})
  {
  }

  /** The index loop of `execute`: one entry per descriptor, in order, stopping at
      the first descriptor whose column has no value. */
  method AddEntries(ins: Insert, idx: map<string, multiset<Entry>>, rid: Rid)
    returns (idx': map<string, multiset<Entry>>, error: Option<InsertError>)
    ensures error.None? <==> KeysResolve(ins, ins.descs)
    ensures error.None? ==> IndexesAfter(idx, idx', ins, ins.descs, rid)
    ensures error.Some? ==>
              exists k :: 0 <= k < |ins.descs| && KeyFor(ins, ins.descs[k]).None?
                && error.value == IndexColumnMissing(ins.descs[k].indexName, ins.descs[k].columnName)
                && IndexesAfter(idx, idx', ins, ins.descs[..k], rid)
    ensures |ins.descs| == 0 ==> idx' == idx
  {
    idx' := idx;
    var i := 0;
    IndexesAfterNone(idx, ins, ins.descs[..0], rid);
    while i < |ins.descs|
      invariant 0 <= i <= |ins.descs|
      invariant IndexesAfter(idx, idx', ins, ins.descs[..i], rid)
      invariant i == 0 ==> idx' == idx
    {
      var d := ins.descs[i];
      var key := KeyFor(ins, d);
      if key.None? {
        error := Some(IndexColumnMissing(d.indexName, d.columnName));
        assert !KeysResolve(ins, ins.descs) by { assert KeyFor(ins, ins.descs[i]).None?; }
        return;
      }
      IndexStep(idx, idx', ins, ins.descs[..i], d, rid);
      assert ins.descs[..i] + [d] == ins.descs[..i + 1];
      idx' := idx'[d.indexName := Index(idx', d.indexName) + multiset{Entry(key.value, rid)}];
      i := i + 1;
    }
    assert ins.descs[..i] == ins.descs;
    error := None;
  }

  /** `execute`: storage append, then the count update, then one index entry per
      descriptor. A failure leaves the earlier steps in place. */
  method Execute(ins: Insert, db: Db) returns (out: Outcome)
    ensures Heap(out.db, ins.table) == Heap(db, ins.table) + [ins.values]
    ensures out.rid == Rid(|Heap(db, ins.table)|)
    ensures forall n :: n != ins.table ==> Heap(out.db, n) == Heap(db, n)
    ensures out.db.catalog.tables == db.catalog.tables
    ensures |db.catalog.rel| == 0 ==>
              out.error == Some(NoCatalogRows) && out.db.catalog.rel == db.catalog.rel && out.db.indexes == db.indexes
    ensures |db.catalog.rel| > 0 ==> UpdateCardinality(db.catalog.rel, ins.table) == Success(out.db.catalog.rel)
    ensures out.error.None? <==> |db.catalog.rel| > 0 && KeysResolve(ins, ins.descs)
    ensures out.error.None? ==> IndexesAfter(db.indexes, out.db.indexes, ins, ins.descs, out.rid)
    ensures out.error.Some? && out.error.value.IndexColumnMissing? ==>
              exists k :: 0 <= k < |ins.descs| && KeyFor(ins, ins.descs[k]).None?
                && out.error.value == IndexColumnMissing(ins.descs[k].indexName, ins.descs[k].columnName)
                && IndexesAfter(db.indexes, out.db.indexes, ins, ins.descs[..k], out.rid)
    ensures |ins.descs| == 0 ==> out.db.indexes == db.indexes
  {
    var heap := Heap(db, ins.table);
    var rid := Rid(|heap|);
    var stored := db.(heaps := db.heaps[ins.table := heap + [ins.values]]);
    var rel := UpdateCardinality(db.catalog.rel, ins.table);
    if rel.Failure? {
      return Outcome(stored, rid, Some(rel.error));
    }
    var counted := stored.(catalog := stored.catalog.(rel := rel.value));
    var idx, error := AddEntries(ins, db.indexes, rid);
    out := Outcome(counted.(indexes := idx), rid, error);
  }

  // ---------------------------------------------------------------------------
  // Lemmas

  /** The first-match position is pinned down by its characterisation. */
  lemma {:induction false} FirstRowIs(rows: seq<RelRow>, name: string, k: nat)
    requires k < |rows| && rows[k].relName == name
    requires forall j :: 0 <= j < k ==> rows[j].relName != name
    ensures FirstRow(rows, name) == Some(k)
  {
  }

  /** Two catalog relations with the same names row by row answer the
      first-match question alike. */
  lemma {:induction false} FirstRowByNames(rows: seq<RelRow>, rows': seq<RelRow>, name: string)
    requires |rows'| == |rows|
    requires forall j :: 0 <= j < |rows| ==> rows'[j].relName == rows[j].relName
    ensures FirstRow(rows', name) == FirstRow(rows, name)
  {
    match FirstRow(rows, name)
    case None =>
      assert forall j :: 0 <= j < |rows'| ==> rows'[j].relName != name;
    case Some(k) =>
      FirstRowIs(rows', name, k);
  }

  /** When the table has a catalog row, its first row gains one (as a Java int),
      the count read back for it is the old count plus one, and the count of every
      other table is unchanged. */
  lemma CountUpdateReadAfterWrite(rows: seq<RelRow>, name: string)
    requires Cardinality(rows, name).Some?
    ensures UpdateCardinality(rows, name).Success?
    ensures var rows' := UpdateCardinality(rows, name).value;
            && Cardinality(rows', name) == Some(Succ32(Cardinality(rows, name).value))
            && (forall other :: other != name ==> Cardinality(rows', other) == Cardinality(rows, other))
            && (Cardinality(rows, name).value < 0x7fff_ffff ==>
                  Cardinality(rows', name).value as int == Cardinality(rows, name).value as int + 1)
  {
    var k := FirstRow(rows, name).value;
    assert StopRow(rows, name) == k;
    var rows' := UpdateCardinality(rows, name).value;
    assert forall j :: 0 <= j < |rows| ==> rows'[j].relName == rows[j].relName;
    forall other ensures FirstRow(rows', other) == FirstRow(rows, other) {
      FirstRowByNames(rows, rows', other);
    }
    forall other | other != name
      ensures Cardinality(rows', other) == Cardinality(rows, other)
    {
      match FirstRow(rows, other)
      case None =>
      case Some(m) =>
        assert m != k;
    }
  }

  /** As written, when no catalog row carries the table's name the scan runs off
      the end and the last row's count is the one increased. */
  lemma CountUpdateWithoutRowBumpsLast(rows: seq<RelRow>, name: string)
    requires |rows| > 0 && Cardinality(rows, name).None?
    ensures var last := |rows| - 1;
            && UpdateCardinality(rows, name).Success?
            && UpdateCardinality(rows, name).value == rows[last := rows[last].(recCount := Succ32(rows[last].recCount))]
  {
  }
}

=== FILE: plans.dfy ===
/** Operator trees as the SELECT compiler builds them, with the schema each tree
    produces. A join's schema lists its outer child's fields before its inner's. */
module Plans {
  import opened Wrappers
  import opened Relational
  import opened Catalogs
  import Projections

  datatype Plan =
    | Scan(table: string)
    | KeyScanLeaf(table: string, index: string, key: Value, heap: string)
    | Filter(child: Plan, preds: seq<Predicate>)
    | Join(outer: Plan, inner: Plan)
    | Project(child: Plan, cols: seq<nat>)

  /** The schema a plan produces, or None when it names an unknown table or
      projects a position its child does not have. A key scan produces the schema
      of the table it was built for. */
  function SchemaOf(cat: Catalog, p: Plan): Option<Schema> {
    match p
    case Scan(t) => TableSchema(cat, t)
    case KeyScanLeaf(t, _, _, _) => TableSchema(cat, t)
    case Filter(c, _) => SchemaOf(cat, c)
    case Join(o, i) =>
      (match SchemaOf(cat, o)
       case None => None
       case Some(so) =>
         match SchemaOf(cat, i)
         case None => None
         case Some(si) => Some(so + si))
    case Project(c, cols) =>
      match SchemaOf(cat, c)
      case None => None
      case Some(s) =>
        if Projections.InRange(cols, |s|) then Some(Projections.Pick(s, cols)) else None
  }

  /** The inputs a join tree combines, left to right; anything that is not a join
      counts as one input. */
  function JoinInputs(p: Plan): seq<Plan> {
    if p.Join? then JoinInputs(p.outer) + JoinInputs(p.inner) else [p]
  }
}

=== FILE: projections.dfy ===
/** The Projection operator: a child cursor and a list of field positions. The
    output schema copies the referenced input fields in list order; every input
    tuple becomes exactly one output tuple (no duplicate elimination). */
module Projections {
  import opened Wrappers
  import opened Relational
  import opened Cursors

  datatype Projection = Projection(child: Cursor, fields: seq<int>, schema: Schema, closed: bool)

  datatype ProjectionError = FieldOutOfRange(position: nat, field: int)

  /** Every position names a field of something `width` wide. */
  predicate InRange(fields: seq<int>, width: nat) {
    forall k :: 0 <= k < |fields| ==> 0 <= fields[k] < width
  }

  /** The elements of `xs` at the listed positions, in list order; repeats allowed. */
  function Pick<T>(xs: seq<T>, fields: seq<int>): (r: seq<T>)
    requires InRange(fields, |xs|)
    ensures |r| == |fields|
    ensures forall k :: 0 <= k < |fields| ==> r[k] == xs[fields[k]]
  {
    seq(|fields|, k requires 0 <= k < |fields| => xs[fields[k]])
  }

  /** The first position whose field number lies outside the input schema. */
  function FirstOutOfRange(fields: seq<int>, width: nat): (r: Option<nat>)
    ensures r.None? <==> InRange(fields, width)
    ensures r.Some? ==> r.value < |fields| && !(0 <= fields[r.value] < width)
    ensures r.Some? ==> InRange(fields[..r.value], width)
  {
    if |fields| == 0 then None
    else if !(0 <= fields[0] < width) then Some(0)
    else
      match FirstOutOfRange(fields[1..], width)
      case None => None
      case Some(k) =>
        assert fields[..k + 1] == [fields[0]] + fields[1..][..k];
        Some(k + 1)
  }

  /** The constructor: builds the output schema field by field, failing at the
      first position the input schema does not have. */
  function Construct(child: Cursor, fields: seq<int>): (r: Result<Projection, ProjectionError>)
    ensures r.Success? <==> InRange(fields, |child.schema|)
    ensures r.Success? ==>
              && |r.value.schema| == |fields|
              && (forall k :: 0 <= k < |fields| ==> r.value.schema[k] == child.schema[fields[k]])
              && r.value.child == child && r.value.fields == fields && IsOpen(r.value)
    ensures child.Valid() && r.Success? ==> Valid(r.value)
    ensures r.Failure? ==>
              && r.error.position < |fields|
              && r.error.field == fields[r.error.position]
              && !(0 <= r.error.field < |child.schema|)
              && InRange(fields[..r.error.position], |child.schema|)
  {
    match FirstOutOfRange(fields, |child.schema|)
    case Some(k) => Failure(FieldOutOfRange(k, fields[k]))
    case None => Success(Projection(child, fields, Pick(child.schema, fields), false))
  }

  predicate IsOpen(p: Projection) {
    !p.closed
  }

  /** The state every constructed operator keeps. */
  predicate Valid(p: Projection) {
    && p.child.Valid()
    && InRange(p.fields, |p.child.schema|)
    && p.schema == Pick(p.child.schema, p.fields)
  }

  /** `hasNext` is the child's. */
  predicate HasNext(p: Projection) {
    p.child.HasNext()
  }

  /** `getNext`: the next child tuple reduced to the listed fields, or None (Java
      null) when the child is exhausted. */
  function GetNext(p: Projection): (r: (Option<Tuple>, Projection))
    requires Valid(p)
    ensures Valid(r.1) && r.1.fields == p.fields && r.1.child.tuples == p.child.tuples
    ensures HasNext(p) ==>
              && r.0.Some?
              && |r.0.value| == |p.schema|
              && (forall k :: 0 <= k < |p.fields| ==> r.0.value[k] == p.child.Head()[p.fields[k]])
              && r.1.child.Remaining() == p.child.Remaining()[1..]
    ensures !HasNext(p) ==> r.0.None? && r.1 == p
  {
    if p.child.HasNext() then
      var old_tuple := p.child.Head();
      assert old_tuple in p.child.tuples;
      (Some(Pick(old_tuple, p.fields)), p.(child := p.child.Next()))
    else
      (None, p)
  }

  /** `close`: closes the child and the operator; the field list and the output
      schema stay. */
  function Close(p: Projection): (r: Projection)
    requires Valid(p)
    ensures Valid(r) && !IsOpen(r) && !r.child.open && r.child.Remaining() == p.child.Remaining()
    ensures r.fields == p.fields && r.schema == p.schema && r.child.tuples == p.child.tuples
  {
    p.(child := p.child.Close(), closed := true)
  }

  /** `restart`: the operator as if just constructed over the restarted child. */
  function Restart(p: Projection): (r: Projection)
    requires Valid(p)
    ensures Valid(r) && IsOpen(r) && r.child.open && r.child.Remaining() == p.child.tuples
    ensures r.fields == p.fields && r.schema == p.schema
    ensures Construct(p.child.Restart(), p.fields) == Success(r)
  {
    p.(child := p.child.Restart(), closed := false)
  }

  /** Drains the operator through `hasNext`/`getNext`. */
  function Run(p: Projection): seq<Tuple>
    requires Valid(p)
    decreases |p.child.tuples| - p.child.pos
  {
    if !HasNext(p) then []
    else
      var step := GetNext(p);
      [step.0.value] + Run(step.1)
  }

  /** Reference semantics: every tuple of `ts` reduced to the listed fields. */
  function ProjectAll(ts: seq<Tuple>, fields: seq<int>): (r: seq<Tuple>)
    requires forall t :: t in ts ==> InRange(fields, |t|)
  {
    seq(|ts|, i requires 0 <= i < |ts| => Pick(ts[i], fields))
  }

  // ---------------------------------------------------------------------------
  // Lemmas

  /** One output tuple per remaining input tuple, in order, each holding the
      listed fields of its input tuple. */
  lemma {:induction false} RunProjectsEachTuple(p: Projection)
    requires Valid(p)
    ensures forall t :: t in p.child.Remaining() ==> InRange(p.fields, |t|)
    ensures Run(p) == ProjectAll(p.child.Remaining(), p.fields)
    decreases |p.child.tuples| - p.child.pos
  {
    assert forall t :: t in p.child.Remaining() ==> t in p.child.tuples;
    if HasNext(p) {
      var step := GetNext(p);
      RunProjectsEachTuple(step.1);
      var h := p.child.Head();
      var rest := step.1.child.Remaining();
      assert p.child.Remaining() == [h] + rest;
      assert step.0.value == Pick(h, p.fields);
      ProjectAllCons(h, rest, p.fields);
    }
  }

  lemma ProjectAllCons(h: Tuple, ts: seq<Tuple>, fields: seq<int>)
    requires InRange(fields, |h|) && forall t :: t in ts ==> InRange(fields, |t|)
    ensures forall t :: t in [h] + ts ==> InRange(fields, |t|)
    ensures ProjectAll([h] + ts, fields) == [Pick(h, fields)] + ProjectAll(ts, fields)
  {
  }

  /** The number of output tuples equals the number of input tuples, and output
      field k of the i-th tuple is input field `fields[k]` of the i-th input. */
  lemma RunCountsAndFields(p: Projection)
    requires Valid(p)
    ensures |Run(p)| == |p.child.Remaining()|
    ensures forall i, k :: 0 <= i < |Run(p)| && 0 <= k < |p.fields| ==>
              |Run(p)[i]| == |p.fields| && Run(p)[i][k] == p.child.Remaining()[i][p.fields[k]]
  {
    RunProjectsEachTuple(p);
  }

  /** After a restart the operator yields every child tuple from the first,
      reduced to the listed fields. */
  lemma {:induction false} RunAfterRestart(p: Projection)
    requires Valid(p)
    ensures forall t :: t in p.child.tuples ==> InRange(p.fields, |t|)
    ensures Run(Restart(p)) == ProjectAll(p.child.tuples, p.fields)
  {
    RunProjectsEachTuple(Restart(p));
  }

  /** Projecting onto 0..n-1 of an n-wide tuple or schema changes nothing. */
  lemma IdentityPick<T>(xs: seq<T>, fields: seq<int>)
    requires |fields| == |xs| && forall k :: 0 <= k < |fields| ==> fields[k] == k
    ensures InRange(fields, |xs|) && Pick(xs, fields) == xs
  {
  }
}

=== FILE: relational.dfy ===
/** The value model the query layer consumes: type tags, values, schemas, tuples,
    predicates and index descriptors. Their Java classes are not part of this model;
    only the parts the core reads are represented. */
module Relational {
  import opened Wrappers

  /** Type tag of a field or of a predicate operand. `ColName` and `FieldNo` mark an
      operand that refers to a column (by name or by position) instead of a literal. */
  datatype AttrType = FloatType | IntegerType | StringType | ColName | FieldNo

  /** The tag of an operand that is a literal value. */
  predicate IsLiteral(t: AttrType) {
    t.FloatType? || t.IntegerType? || t.StringType?
  }

  datatype Value = IntValue(i: int) | FloatValue(f: real) | StrValue(s: string)

  /** One field of a schema: its type, its byte length and its name. */
  datatype Field = Field(ftype: AttrType, length: nat, name: string)

  /** An ordered list of fields; joining two schemas concatenates them. */
  type Schema = seq<Field>

  /** The values of one record, by field position. */
  type Tuple = seq<Value>

  datatype CompOp = Eq | Ne | Lt | Le | Gt | Ge

  /** A comparison between a left operand (a column name for every predicate the
      parser builds) and a right operand; each operand carries its type tag. */
  datatype Predicate = Predicate(op: CompOp, ltype: AttrType, left: Value, rtype: AttrType, right: Value)

  /** The filler predicate `field 1 = field 1` the SELECT compiler uses when the
      statement carries no predicate groups. */
  const AlwaysTrue: Predicate := Predicate(Eq, FieldNo, IntValue(1), FieldNo, IntValue(1))

  /** Predicate evaluation against one tuple; its code is not part of this model. */
  type Evaluator = (Predicate, Tuple) -> bool

  /** A hash index on one column of a table. */
  datatype IndexDesc = IndexDesc(indexName: string, columnName: string)

  /** Position of the first field called `name`, or None when the schema has none. */
  function FieldNumber(s: Schema, name: string): (r: Option<nat>)
    ensures r.Some? ==> r.value < |s| && s[r.value].name == name
  {
    if |s| == 0 then None
    else if s[0].name == name then Some(0)
    else
      match FieldNumber(s[1..], name)
      case None => None
      case Some(k) => Some(k + 1)
  }

  /** The position found is the first with that name, and there is none exactly
      when no field has it. */
  lemma {:induction false} FieldNumberFirst(s: Schema, name: string)
    ensures var r := FieldNumber(s, name);
            && (r.Some? ==> forall i :: 0 <= i < r.value ==> s[i].name != name)
            && (r.None? <==> forall i :: 0 <= i < |s| ==> s[i].name != name)
  {
    if |s| > 0 && s[0].name != name {
      FieldNumberFirst(s[1..], name);
      forall i | 0 < i < |s|
        ensures s[i].name == s[1..][i - 1].name
      {
      }
    }
  }
}

=== FILE: select_compiler.dfy ===
/** The SELECT plan compiler: from table names, output column names and
    per-table predicate groups to an operator tree. It checks the tables, pushes
    column-versus-literal predicates down to the table leaves (a key scan when the
    column is indexed, a one-predicate Filter otherwise), joins the tables in
    statement order choosing outer and inner by adjacent cardinalities, stacks the
    remaining predicate groups as Filters and puts a Projection on top. */
module SelectCompiler {
  import opened Wrappers
  import opened Relational
  import opened Catalogs
  import opened Plans
  import Projections

  /** The parsed statement: tables, requested columns (empty means all) and one
      predicate group per slot. */
  datatype Query = Query(tables: seq<string>, columns: seq<string>, groups: seq<seq<Predicate>>)

  /** Predicate validation against a schema and the predicate's text form; their
      code is not part of this model. */
  datatype Env = Env(validate: (Predicate, Schema) -> bool, text: Predicate -> string)

  datatype CompileError =
    | UnknownTable(name: string)
    | NoTables
    | MissingStatistics(name: string)
    | UnknownColumn(name: string)

  /** The compiled plan with the intermediate operators the compiler keeps: the
      per-table leaves, the join tree, the Filter chain, the root Projection, its
      position list, the joined schema and the output schema. */
  datatype Compiled = Compiled(
    leaves: seq<Plan>, joined: Plan, filtered: Plan, root: Plan,
    cols: seq<nat>, schema: Schema, output: Schema)

  predicate AllExist(cat: Catalog, tables: seq<string>) {
    forall i :: 0 <= i < |tables| ==> tables[i] in cat.tables
  }

  function SchemaAt(cat: Catalog, tables: seq<string>, i: nat): Schema
    requires i < |tables| && AllExist(cat, tables)
  {
    cat.tables[tables[i]].schema
  }

  // ---------------------------------------------------------------------------
  // Table check

  /** Position of the first table the catalog does not know. */
  function FirstMissing(cat: Catalog, tables: seq<string>): (r: Option<nat>)
    ensures r.None? <==> AllExist(cat, tables)
    ensures r.Some? ==> r.value < |tables| && tables[r.value] !in cat.tables
    ensures r.Some? ==> forall i :: 0 <= i < r.value ==> tables[i] in cat.tables
  {
    if |tables| == 0 then None
    else if tables[0] !in cat.tables then Some(0)
    else
      match FirstMissing(cat, tables[1..])
      case None => None
      case Some(k) => Some(k + 1)
  }

  // ---------------------------------------------------------------------------
  // Column-to-index map

  function Lookup(m: map<string, IndexDesc>, c: string): Option<IndexDesc> {
    if c in m then Some(m[c]) else None
  }

  /** `put(id.columnName, id)` for each descriptor in order. */
  function PutAll(m: map<string, IndexDesc>, ds: seq<IndexDesc>): map<string, IndexDesc>
    decreases |ds|
  {
    if |ds| == 0 then m else PutAll(m[ds[0].columnName := ds[0]], ds[1..])
  }

  /** The map-building loop over the tables. */
  function ColumnIndexesFrom(cat: Catalog, tables: seq<string>, m: map<string, IndexDesc>): map<string, IndexDesc>
    requires AllExist(cat, tables)
    decreases |tables|
  {
    if |tables| == 0 then m
    else ColumnIndexesFrom(cat, tables[1..], PutAll(m, cat.tables[tables[0]].indexes))
  }

  function ColumnIndexes(cat: Catalog, tables: seq<string>): map<string, IndexDesc>
    requires AllExist(cat, tables)
  {
    ColumnIndexesFrom(cat, tables, map[])
  }

  /** Every index descriptor of the listed tables, table by table. */
  function AllIndexes(cat: Catalog, tables: seq<string>): seq<IndexDesc>
    requires AllExist(cat, tables)
    decreases |tables|
  {
    if |tables| == 0 then [] else cat.tables[tables[0]].indexes + AllIndexes(cat, tables[1..])
  }

  /** Reference: the last descriptor in `ds` on column `c`. */
  function LastOn(ds: seq<IndexDesc>, c: string): (r: Option<IndexDesc>)
    ensures r.Some? ==> r.value in ds && r.value.columnName == c
    ensures r.None? <==> forall i :: 0 <= i < |ds| ==> ds[i].columnName != c
  {
    if |ds| == 0 then None
    else
      match LastOn(ds[1..], c)
      case Some(d) => Some(d)
      case None => if ds[0].columnName == c then Some(ds[0]) else None
  }

  lemma {:induction false} LastOnAppend(a: seq<IndexDesc>, b: seq<IndexDesc>, c: string)
    ensures LastOn(a + b, c) == if LastOn(b, c).Some? then LastOn(b, c) else LastOn(a, c)
  {
    if |a| == 0 {
      assert a + b == b;
    } else {
      assert (a + b)[1..] == a[1..] + b;
      LastOnAppend(a[1..], b, c);
    }
  }

  lemma {:induction false} PutAllShadows(m: map<string, IndexDesc>, ds: seq<IndexDesc>, c: string)
    ensures Lookup(PutAll(m, ds), c) == if LastOn(ds, c).Some? then LastOn(ds, c) else Lookup(m, c)
    decreases |ds|
  {
    if |ds| > 0 {
      PutAllShadows(m[ds[0].columnName := ds[0]], ds[1..], c);
    }
  }

  lemma {:induction false} ColumnIndexesFromShadows(cat: Catalog, tables: seq<string>, m: map<string, IndexDesc>, c: string)
    requires AllExist(cat, tables)
    ensures Lookup(ColumnIndexesFrom(cat, tables, m), c)
         == if LastOn(AllIndexes(cat, tables), c).Some? then LastOn(AllIndexes(cat, tables), c) else Lookup(m, c)
    decreases |tables|
  {
    if |tables| > 0 {
      var ds := cat.tables[tables[0]].indexes;
      ColumnIndexesFromShadows(cat, tables[1..], PutAll(m, ds), c);
      PutAllShadows(m, ds, c);
      LastOnAppend(ds, AllIndexes(cat, tables[1..]), c);
    }
  }

  /** The column-to-index map holds, for each column, the descriptor listed last
      across all the statement's tables: a later table's index on a column of the
      same name shadows an earlier one. */
  lemma ColumnIndexesShadow(cat: Catalog, tables: seq<string>, c: string)
    requires AllExist(cat, tables)
    ensures Lookup(ColumnIndexes(cat, tables), c) == LastOn(AllIndexes(cat, tables), c)
  {
    ColumnIndexesFromShadows(cat, tables, map[], c);
  }

  // ---------------------------------------------------------------------------
  // Push-down

  /** The leaf a pushed predicate gives its table: a key scan keyed on the
      predicate's right operand when its left column is in the index map (the scan
      reads the heap file named after the index), else a Filter with just that
      predicate over the table's original scan. */
  function PushedLeaf(table: string, colIdx: map<string, IndexDesc>, p: Predicate): Plan {
    if p.left.StrValue? && p.left.s in colIdx then
      KeyScanLeaf(table, colIdx[p.left.s].indexName, p.right, colIdx[p.left.s].indexName)
    else
      Filter(Scan(table), [p])
  }

  /** The leaf of a table whose pass pushed `pushed`: its scan if nothing, else
      what the last push built. */
  function LeafAfter(table: string, colIdx: map<string, IndexDesc>, pushed: seq<Predicate>): Plan {
    if |pushed| == 0 then Scan(table) else PushedLeaf(table, colIdx, pushed[|pushed| - 1])
  }

  /** The predicate's left operand is a column the index map holds. */
  predicate Indexed(colIdx: map<string, IndexDesc>, p: Predicate) {
    p.left.StrValue? && p.left.s in colIdx
  }

  /** Corrected leaf: a push on a column without an index wraps the table's
      CURRENT leaf, so earlier pushes stay applied; a push on an indexed column
      still replaces the leaf by a key scan. */
  function StackedLeaf(table: string, colIdx: map<string, IndexDesc>, pushed: seq<Predicate>): Plan
    decreases |pushed|
  {
    if |pushed| == 0 then Scan(table)
    else
      var p := pushed[|pushed| - 1];
      if Indexed(colIdx, p) then PushedLeaf(table, colIdx, p)
      else Filter(StackedLeaf(table, colIdx, pushed[..|pushed| - 1]), [p])
  }

  /** Corrected access path: a hash index finds the rows holding one key, so a
      key scan stands only for an equality on an indexed column; any other push
      is a Filter with the predicate over the table's scan. */
  function EqualityLeaf(table: string, colIdx: map<string, IndexDesc>, p: Predicate): Plan {
    if Indexed(colIdx, p) && p.op == Eq then PushedLeaf(table, colIdx, p) else Filter(Scan(table), [p])
  }

  /** The corrected leaf is a key scan exactly for an equality on an indexed
      column, agrees with the code's leaf on equalities, and otherwise applies the
      predicate itself. */
  lemma EqualityLeafKeepsOperator(table: string, colIdx: map<string, IndexDesc>, p: Predicate)
    ensures EqualityLeaf(table, colIdx, p).KeyScanLeaf? <==> Indexed(colIdx, p) && p.op == Eq
    ensures p.op == Eq ==> EqualityLeaf(table, colIdx, p) == PushedLeaf(table, colIdx, p)
    ensures p.op != Eq ==> EqualityLeaf(table, colIdx, p) == Filter(Scan(table), [p])
  {
  }

  /** One single-predicate layer per predicate, in order. */
  function Singletons(ps: seq<Predicate>): (r: seq<seq<Predicate>>)
    ensures |r| == |ps| && forall i :: 0 <= i < |ps| ==> r[i] == [ps[i]]
  {
    seq(|ps|, i requires 0 <= i < |ps| => [ps[i]])
  }

  /** With no indexed column among them, the corrected leaf applies every pushed
      predicate: it is the table's scan under one Filter per push, the first
      push innermost. */
  lemma {:induction false} StackedLeafKeepsEveryPush(table: string, colIdx: map<string, IndexDesc>, pushed: seq<Predicate>)
    requires forall i :: 0 <= i < |pushed| ==> !Indexed(colIdx, pushed[i])
    ensures StackedLeaf(table, colIdx, pushed) == Layered(Scan(table), Singletons(pushed))
    decreases |pushed|
  {
    if |pushed| > 0 {
      var n := |pushed|;
      var front := pushed[..n - 1];
      assert forall i :: 0 <= i < |front| ==> front[i] == pushed[i];
      StackedLeafKeepsEveryPush(table, colIdx, front);
      var layers := Singletons(pushed);
      assert layers[..n - 1] == Singletons(front);
      assert layers[n - 1] == [pushed[n - 1]];
    }
  }

  /** The texts of a list of predicates. */
  function Texts(env: Env, ps: seq<Predicate>): set<string>
    decreases |ps|
  {
    if |ps| == 0 then {} else {env.text(ps[0])} + Texts(env, ps[1..])
  }

  /** No two predicates of the list share a text. */
  predicate DistinctTexts(env: Env, ps: seq<Predicate>)
    decreases |ps|
  {
    |ps| == 0 || (env.text(ps[0]) !in Texts(env, ps[1..]) && DistinctTexts(env, ps[1..]))
  }

  lemma {:induction false} AppendTexts(env: Env, a: seq<Predicate>, b: seq<Predicate>)
    ensures Texts(env, a + b) == Texts(env, a) + Texts(env, b)
    ensures DistinctTexts(env, a) && DistinctTexts(env, b) && Texts(env, a) !! Texts(env, b) ==> DistinctTexts(env, a + b)
    decreases |a|
  {
    if |a| == 0 {
      assert a + b == b;
    } else {
      assert (a + b)[1..] == a[1..] + b;
      AppendTexts(env, a[1..], b);
    }
  }

  lemma TextsCons(env: Env, p: Predicate, ps: seq<Predicate>)
    ensures Texts(env, [p] + ps) == {env.text(p)} + Texts(env, ps)
    ensures DistinctTexts(env, [p] + ps) <==> env.text(p) !in Texts(env, ps) && DistinctTexts(env, ps)
  {
    assert ([p] + ps)[1..] == ps;
  }

  /** A predicate the pass applies: literal-typed, valid for the table's schema and
      not applied before. */
  predicate Pushable(env: Env, schema: Schema, removed: set<string>, p: Predicate) {
    IsLiteral(p.rtype) && env.validate(p, schema) && env.text(p) !in removed
  }

  /** Every predicate of `pushed` comes from `ps`, is literal-typed and is valid for `schema`. */
  predicate AllApplicable(env: Env, schema: Schema, ps: seq<Predicate>, pushed: seq<Predicate>) {
    forall q :: q in pushed ==> q in ps && IsLiteral(q.rtype) && env.validate(q, schema)
  }

  datatype Pass = Pass(leaf: Plan, removed: set<string>, pushed: seq<Predicate>)

  /** Applying the first predicate of `ps` in front of what the rest of the pass
      applied keeps the log applicable, and the last entry stays the last. */
  lemma ApplicableCons(env: Env, schema: Schema, ps: seq<Predicate>, pushed: seq<Predicate>)
    requires |ps| > 0 && IsLiteral(ps[0].rtype) && env.validate(ps[0], schema)
    requires AllApplicable(env, schema, ps[1..], pushed)
    ensures AllApplicable(env, schema, ps, [ps[0]] + pushed)
    ensures ([ps[0]] + pushed)[|pushed|] == if |pushed| == 0 then ps[0] else pushed[|pushed| - 1]
  {
    forall q | q in [ps[0]] + pushed
      ensures q in ps
    {
      if q != ps[0] {
        assert q in ps[1..];
      }
    }
  }

  /** Skipping the first predicate of `ps` keeps the log applicable. */
  lemma ApplicableTail(env: Env, schema: Schema, ps: seq<Predicate>, pushed: seq<Predicate>)
    requires |ps| > 0 && AllApplicable(env, schema, ps[1..], pushed)
    ensures AllApplicable(env, schema, ps, pushed)
  {
    forall q | q in pushed
      ensures q in ps
    {
      assert q in ps[1..];
    }
  }

  /** One table's pass over the predicates of all groups in order; `pushed` logs
      what it applied, and the leaf is what the last application built. */
  function PushPass(env: Env, table: string, schema: Schema, colIdx: map<string, IndexDesc>,
                    ps: seq<Predicate>, leaf: Plan, removed: set<string>): Pass
    decreases |ps|
  {
    if |ps| == 0 then Pass(leaf, removed, [])
    else
      var p := ps[0];
      if Pushable(env, schema, removed, p) then
        var rest := PushPass(env, table, schema, colIdx, ps[1..], PushedLeaf(table, colIdx, p), removed + {env.text(p)});
        Pass(rest.leaf, rest.removed, [p] + rest.pushed)
      else
        PushPass(env, table, schema, colIdx, ps[1..], leaf, removed)
  }

  /** A pass applies only literal-typed predicates of `ps` valid for the table, in
      statement order and the first per text (the reference `Applied`), and its
      leaf is the one the last of them built (the starting leaf if none). */
  lemma {:induction false} PushPassShape(env: Env, table: string, schema: Schema, colIdx: map<string, IndexDesc>,
                                         ps: seq<Predicate>, leaf: Plan, removed: set<string>)
    ensures var r := PushPass(env, table, schema, colIdx, ps, leaf, removed);
            && r.leaf == (if |r.pushed| == 0 then leaf else PushedLeaf(table, colIdx, r.pushed[|r.pushed| - 1]))
            && AllApplicable(env, schema, ps, r.pushed)
            && r.pushed == Applied(env, schema, removed, ps)
    decreases |ps|
  {
    PushPassInOrder(env, table, schema, colIdx, ps, leaf, removed);
    if |ps| > 0 {
      var p := ps[0];
      if Pushable(env, schema, removed, p) {
        var next := PushedLeaf(table, colIdx, p);
        PushPassShape(env, table, schema, colIdx, ps[1..], next, removed + {env.text(p)});
        var rest := PushPass(env, table, schema, colIdx, ps[1..], next, removed + {env.text(p)});
        ApplicableCons(env, schema, ps, rest.pushed);
      } else {
        PushPassShape(env, table, schema, colIdx, ps[1..], leaf, removed);
        var rest := PushPass(env, table, schema, colIdx, ps[1..], leaf, removed);
        ApplicableTail(env, schema, ps, rest.pushed);
      }
    }
  }

  /** A pass applies each text at most once, never one applied before, records
      what it applied, and applies (or finds already applied) every literal-typed
      predicate that is valid for the table. */
  lemma {:induction false} PushPassAppliesOnce(env: Env, table: string, schema: Schema, colIdx: map<string, IndexDesc>,
                                               ps: seq<Predicate>, leaf: Plan, removed: set<string>)
    ensures var r := PushPass(env, table, schema, colIdx, ps, leaf, removed);
            && r.removed == removed + Texts(env, r.pushed)
            && DistinctTexts(env, r.pushed)
            && Texts(env, r.pushed) !! removed
            && forall p :: p in ps && IsLiteral(p.rtype) && env.validate(p, schema) ==> env.text(p) in r.removed
  {
    PushPassRecords(env, table, schema, colIdx, ps, leaf, removed);
    PushPassComplete(env, table, schema, colIdx, ps, leaf, removed);
  }

  /** The texts a pass adds are exactly those of what it pushed, new and distinct. */
  lemma {:induction false} PushPassRecords(env: Env, table: string, schema: Schema, colIdx: map<string, IndexDesc>,
                                           ps: seq<Predicate>, leaf: Plan, removed: set<string>)
    ensures var r := PushPass(env, table, schema, colIdx, ps, leaf, removed);
            && r.removed == removed + Texts(env, r.pushed)
            && DistinctTexts(env, r.pushed)
            && Texts(env, r.pushed) !! removed
    decreases |ps|
  {
    if |ps| > 0 {
      var p := ps[0];
      if Pushable(env, schema, removed, p) {
        var removed' := removed + {env.text(p)};
        PushPassRecords(env, table, schema, colIdx, ps[1..], PushedLeaf(table, colIdx, p), removed');
        var rest := PushPass(env, table, schema, colIdx, ps[1..], PushedLeaf(table, colIdx, p), removed');
        TextsCons(env, p, rest.pushed);
        var r := PushPass(env, table, schema, colIdx, ps, leaf, removed);
        assert r.pushed == [p] + rest.pushed && r.removed == rest.removed;
        assert env.text(p) !in removed;
      } else {
        PushPassRecords(env, table, schema, colIdx, ps[1..], leaf, removed);
      }
    }
  }

  /** Every literal-typed predicate valid for the table has its text applied by
      the end of the pass. */
  lemma {:induction false} PushPassComplete(env: Env, table: string, schema: Schema, colIdx: map<string, IndexDesc>,
                                            ps: seq<Predicate>, leaf: Plan, removed: set<string>)
    ensures var r := PushPass(env, table, schema, colIdx, ps, leaf, removed);
            && removed <= r.removed
            && forall p :: p in ps && IsLiteral(p.rtype) && env.validate(p, schema) ==> env.text(p) in r.removed
    decreases |ps|
  {
    if |ps| > 0 {
      var p := ps[0];
      var r := PushPass(env, table, schema, colIdx, ps, leaf, removed);
      if Pushable(env, schema, removed, p) {
        PushPassComplete(env, table, schema, colIdx, ps[1..], PushedLeaf(table, colIdx, p), removed + {env.text(p)});
      } else {
        PushPassComplete(env, table, schema, colIdx, ps[1..], leaf, removed);
      }
      forall q | q in ps && IsLiteral(q.rtype) && env.validate(q, schema)
        ensures env.text(q) in r.removed
      {
        if q != p {
          assert q in ps[1..];
        }
      }
    }
  }

  /** A predicate a pass for the table can apply, whatever was applied before:
      literal-typed and valid for the table's schema. */
  predicate Applicable(env: Env, schema: Schema, p: Predicate) {
    IsLiteral(p.rtype) && env.validate(p, schema)
  }

  /** `ps[i]` is one a pass starting from the texts `removed` applies: it is
      applicable, its text was not applied before, and no earlier applicable
      predicate of `ps` has the same text. */
  predicate AppliedAt(env: Env, schema: Schema, removed: set<string>, ps: seq<Predicate>, i: nat)
    requires i < |ps|
  {
    && Applicable(env, schema, ps[i]) && env.text(ps[i]) !in removed
    && forall j :: 0 <= j < i ==> !(Applicable(env, schema, ps[j]) && env.text(ps[j]) == env.text(ps[i]))
  }

  /** Reference for the log of a pass: the predicates among the first `n` of `ps`
      that it applies, in statement order. */
  function AppliedAmong(env: Env, schema: Schema, removed: set<string>, ps: seq<Predicate>, n: nat): seq<Predicate>
    requires n <= |ps|
    decreases n
  {
    if n == 0 then []
    else
      AppliedAmong(env, schema, removed, ps, n - 1)
        + (if AppliedAt(env, schema, removed, ps, n - 1) then [ps[n - 1]] else [])
  }

  function Applied(env: Env, schema: Schema, removed: set<string>, ps: seq<Predicate>): seq<Predicate> {
    AppliedAmong(env, schema, removed, ps, |ps|)
  }

  /** The texts counted as applied once the first predicate `p` has been seen. */
  function AfterFirst(env: Env, schema: Schema, removed: set<string>, p: Predicate): set<string> {
    if Pushable(env, schema, removed, p) then removed + {env.text(p)} else removed
  }

  /** Whether a later predicate is applied depends on the first one only through
      the texts it adds. */
  lemma AppliedAtTail(env: Env, schema: Schema, removed: set<string>, ps: seq<Predicate>, i: nat)
    requires i + 1 < |ps|
    ensures AppliedAt(env, schema, removed, ps, i + 1)
         == AppliedAt(env, schema, AfterFirst(env, schema, removed, ps[0]), ps[1..], i)
  {
    assert ps[1..][i] == ps[i + 1];
    assert forall j :: 0 <= j < i ==> ps[1..][j] == ps[j + 1];
  }

  lemma {:induction false} AppliedAmongTail(env: Env, schema: Schema, removed: set<string>, ps: seq<Predicate>, n: nat)
    requires n < |ps|
    ensures AppliedAmong(env, schema, removed, ps, n + 1)
         == (if Pushable(env, schema, removed, ps[0]) then [ps[0]] else [])
            + AppliedAmong(env, schema, AfterFirst(env, schema, removed, ps[0]), ps[1..], n)
    decreases n
  {
    if n > 0 {
      AppliedAmongTail(env, schema, removed, ps, n - 1);
      AppliedAtTail(env, schema, removed, ps, n - 1);
      assert ps[1..][n - 1] == ps[n];
    }
  }

  /** A pass logs, in statement order, exactly the reference's predicates: the
      applicable ones whose text was not applied before, the first per text. */
  lemma {:induction false} PushPassInOrder(env: Env, table: string, schema: Schema, colIdx: map<string, IndexDesc>,
                                           ps: seq<Predicate>, leaf: Plan, removed: set<string>)
    ensures PushPass(env, table, schema, colIdx, ps, leaf, removed).pushed == Applied(env, schema, removed, ps)
    decreases |ps|
  {
    if |ps| > 0 {
      var p := ps[0];
      AppliedAmongTail(env, schema, removed, ps, |ps| - 1);
      if Pushable(env, schema, removed, p) {
        PushPassInOrder(env, table, schema, colIdx, ps[1..], PushedLeaf(table, colIdx, p), removed + {env.text(p)});
      } else {
        PushPassInOrder(env, table, schema, colIdx, ps[1..], leaf, removed);
      }
    }
  }

  /** The texts of a list are those of its members. */
  lemma {:induction false} TextsOfMembers(env: Env, ps: seq<Predicate>)
    ensures Texts(env, ps) == set q | q in ps :: env.text(q)
    decreases |ps|
  {
    if |ps| > 0 {
      TextsOfMembers(env, ps[1..]);
      assert forall q :: q in ps <==> q == ps[0] || q in ps[1..];
    }
  }

  /** The texts the predicates of `ps` applicable to `schema` carry. */
  function ApplicableTextsOf(env: Env, schema: Schema, ps: seq<Predicate>): set<string> {
    set p | p in ps && Applicable(env, schema, p) :: env.text(p)
  }

  /** After a pass the applied texts are the earlier ones plus those of every
      predicate applicable to the table. */
  lemma PushPassRemoved(env: Env, table: string, schema: Schema, colIdx: map<string, IndexDesc>,
                        ps: seq<Predicate>, leaf: Plan, removed: set<string>)
    ensures PushPass(env, table, schema, colIdx, ps, leaf, removed).removed == removed + ApplicableTextsOf(env, schema, ps)
  {
    var r := PushPass(env, table, schema, colIdx, ps, leaf, removed);
    PushPassRecords(env, table, schema, colIdx, ps, leaf, removed);
    PushPassComplete(env, table, schema, colIdx, ps, leaf, removed);
    PushPassShape(env, table, schema, colIdx, ps, leaf, removed);
    TextsOfMembers(env, r.pushed);
  }

  /** The texts of the predicates of `flat` applicable to tables lo .. hi-1. */
  function ApplicableTexts(env: Env, cat: Catalog, tables: seq<string>, flat: seq<Predicate>, lo: nat, hi: nat): set<string>
    requires lo <= hi <= |tables| && AllExist(cat, tables)
    decreases hi - lo
  {
    if lo == hi then {}
    else ApplicableTextsOf(env, SchemaAt(cat, tables, lo), flat) + ApplicableTexts(env, cat, tables, flat, lo + 1, hi)
  }

  /** The predicates of all groups in group order. */
  function Concat(pss: seq<seq<Predicate>>): seq<Predicate>
    decreases |pss|
  {
    if |pss| == 0 then [] else pss[0] + Concat(pss[1..])
  }

  datatype PushDown = PushDown(leaves: seq<Plan>, pushed: seq<seq<Predicate>>, removed: set<string>)

  /** Putting the first table's pass in front of the later tables' passes keeps
      every pass applicable to its own table. */
  lemma {:induction false} ConsApplicable(env: Env, cat: Catalog, tables: seq<string>, flat: seq<Predicate>, k: nat,
                                          head: seq<Predicate>, rest: seq<seq<Predicate>>)
    requires k < |tables| && AllExist(cat, tables) && |rest| == |tables| - (k + 1)
    requires AllApplicable(env, SchemaAt(cat, tables, k), flat, head)
    requires forall i :: 0 <= i < |rest| ==> AllApplicable(env, SchemaAt(cat, tables, k + 1 + i), flat, rest[i])
    ensures forall i :: 0 <= i < |[head] + rest| ==> AllApplicable(env, SchemaAt(cat, tables, k + i), flat, ([head] + rest)[i])
  {
    var all := [head] + rest;
    forall i | 0 <= i < |all|
      ensures AllApplicable(env, SchemaAt(cat, tables, k + i), flat, all[i])
    {
      if i > 0 {
        assert all[i] == rest[i - 1];
        assert k + i == k + 1 + (i - 1);
      }
    }
  }

  /** The same for the leaves each pass builds. */
  lemma {:induction false} ConsLeaves(tables: seq<string>, colIdx: map<string, IndexDesc>, k: nat,
                                      leaf: Plan, head: seq<Predicate>, leaves: seq<Plan>, rest: seq<seq<Predicate>>)
    requires k < |tables| && |leaves| == |rest| == |tables| - (k + 1)
    requires leaf == LeafAfter(tables[k], colIdx, head)
    requires forall i :: 0 <= i < |leaves| ==> leaves[i] == LeafAfter(tables[k + 1 + i], colIdx, rest[i])
    ensures forall i :: 0 <= i < |[leaf] + leaves| ==>
              ([leaf] + leaves)[i] == LeafAfter(tables[k + i], colIdx, ([head] + rest)[i])
  {
    var all := [leaf] + leaves;
    var ps := [head] + rest;
    forall i | 0 <= i < |all|
      ensures all[i] == LeafAfter(tables[k + i], colIdx, ps[i])
    {
      if i > 0 {
        assert all[i] == leaves[i - 1] && ps[i] == rest[i - 1];
        assert k + i == k + 1 + (i - 1);
      }
    }
  }

  /** The passes for tables k, k+1, ...; each pass starts from the table's scan and
      from the texts the earlier passes applied. */
  function PushDownFrom(env: Env, cat: Catalog, tables: seq<string>, colIdx: map<string, IndexDesc>,
                        flat: seq<Predicate>, k: nat, removed: set<string>): (r: PushDown)
    requires k <= |tables| && AllExist(cat, tables)
    ensures |r.leaves| == |tables| - k && |r.pushed| == |tables| - k
    ensures forall i :: 0 <= i < |r.leaves| ==> r.leaves[i] == LeafAfter(tables[k + i], colIdx, r.pushed[i])
    ensures forall i :: 0 <= i < |r.pushed| ==> AllApplicable(env, SchemaAt(cat, tables, k + i), flat, r.pushed[i])
    decreases |tables| - k
  {
    if k == |tables| then PushDown([], [], removed)
    else
      var pass := PushPass(env, tables[k], SchemaAt(cat, tables, k), colIdx, flat, Scan(tables[k]), removed);
      PushPassShape(env, tables[k], SchemaAt(cat, tables, k), colIdx, flat, Scan(tables[k]), removed);
      var rest := PushDownFrom(env, cat, tables, colIdx, flat, k + 1, pass.removed);
      var leaves := [pass.leaf] + rest.leaves;
      var pushed := [pass.pushed] + rest.pushed;
      ConsApplicable(env, cat, tables, flat, k, pass.pushed, rest.pushed);
      ConsLeaves(tables, colIdx, k, pass.leaf, pass.pushed, rest.leaves, rest.pushed);
      PushDown(leaves, pushed, rest.removed)
  }

  /** Counting the texts of tables k .. hi-1 as applied is counting table k's, then
      those of tables k+1 .. hi-1. */
  lemma ApplicableTextsStep(env: Env, cat: Catalog, tables: seq<string>, flat: seq<Predicate>, k: nat, hi: nat,
                            removed: set<string>)
    requires k < hi <= |tables| && AllExist(cat, tables)
    ensures removed + ApplicableTexts(env, cat, tables, flat, k, hi)
         == (removed + ApplicableTextsOf(env, SchemaAt(cat, tables, k), flat)) + ApplicableTexts(env, cat, tables, flat, k + 1, hi)
  {
  }

  /** Putting the first table's log in front of the later tables' logs keeps each
      log the reference one for its table. */
  lemma {:induction false} ConsInOrder(env: Env, cat: Catalog, tables: seq<string>, flat: seq<Predicate>, k: nat,
                                       removed: set<string>, head: seq<Predicate>, passRemoved: set<string>,
                                       rest: seq<seq<Predicate>>)
    requires k < |tables| && AllExist(cat, tables) && |rest| == |tables| - (k + 1)
    requires head == Applied(env, SchemaAt(cat, tables, k), removed, flat)
    requires passRemoved == removed + ApplicableTextsOf(env, SchemaAt(cat, tables, k), flat)
    requires forall i :: 0 <= i < |rest| ==>
               rest[i] == Applied(env, SchemaAt(cat, tables, k + 1 + i), passRemoved + ApplicableTexts(env, cat, tables, flat, k + 1, k + 1 + i), flat)
    ensures forall i :: 0 <= i < |[head] + rest| ==>
              ([head] + rest)[i] == Applied(env, SchemaAt(cat, tables, k + i), removed + ApplicableTexts(env, cat, tables, flat, k, k + i), flat)
  {
    var all := [head] + rest;
    forall i | 0 <= i < |all|
      ensures all[i] == Applied(env, SchemaAt(cat, tables, k + i), removed + ApplicableTexts(env, cat, tables, flat, k, k + i), flat)
    {
      if i == 0 {
        assert removed + ApplicableTexts(env, cat, tables, flat, k, k) == removed;
      } else {
        assert all[i] == rest[i - 1];
        assert k + i == k + 1 + (i - 1);
        ApplicableTextsStep(env, cat, tables, flat, k, k + i, removed);
      }
    }
  }

  /** Table k+i's pass logs, in statement order, the predicates of `flat` that are
      applicable to it, the first per text, leaving out every text applicable to
      an earlier table. */
  lemma {:induction false} PushDownInOrder(env: Env, cat: Catalog, tables: seq<string>, colIdx: map<string, IndexDesc>,
                                           flat: seq<Predicate>, k: nat, removed: set<string>)
    requires k <= |tables| && AllExist(cat, tables)
    ensures var r := PushDownFrom(env, cat, tables, colIdx, flat, k, removed);
            forall i :: 0 <= i < |r.pushed| ==>
              r.pushed[i] == Applied(env, SchemaAt(cat, tables, k + i), removed + ApplicableTexts(env, cat, tables, flat, k, k + i), flat)
    decreases |tables| - k
  {
    if k < |tables| {
      var schema := SchemaAt(cat, tables, k);
      var pass := PushPass(env, tables[k], schema, colIdx, flat, Scan(tables[k]), removed);
      var rest := PushDownFrom(env, cat, tables, colIdx, flat, k + 1, pass.removed);
      PushPassInOrder(env, tables[k], schema, colIdx, flat, Scan(tables[k]), removed);
      PushPassRemoved(env, tables[k], schema, colIdx, flat, Scan(tables[k]), removed);
      PushDownInOrder(env, cat, tables, colIdx, flat, k + 1, pass.removed);
      assert var r := PushDownFrom(env, cat, tables, colIdx, flat, k + 1, pass.removed);
             forall i :: 0 <= i < |r.pushed| ==>
               r.pushed[i] == Applied(env, SchemaAt(cat, tables, k + 1 + i), pass.removed + ApplicableTexts(env, cat, tables, flat, k + 1, k + 1 + i), flat);
      ConsInOrder(env, cat, tables, flat, k, removed, pass.pushed, pass.removed, rest.pushed);
      assert PushDownFrom(env, cat, tables, colIdx, flat, k, removed).pushed == [pass.pushed] + rest.pushed;
    }
  }

  /** Across all tables each predicate text is applied at most once, never one
      applied before the first pass; and a literal-typed predicate valid for some
      table has been applied by the end. */
  lemma PushDownAppliesOnce(env: Env, cat: Catalog, tables: seq<string>, colIdx: map<string, IndexDesc>,
                            flat: seq<Predicate>, k: nat, removed: set<string>)
    requires k <= |tables| && AllExist(cat, tables)
    ensures var r := PushDownFrom(env, cat, tables, colIdx, flat, k, removed);
            && r.removed == removed + Texts(env, Concat(r.pushed))
            && DistinctTexts(env, Concat(r.pushed))
            && Texts(env, Concat(r.pushed)) !! removed
            && forall i, p :: k <= i < |tables| && p in flat && IsLiteral(p.rtype) && env.validate(p, SchemaAt(cat, tables, i))
                 ==> env.text(p) in r.removed
  {
    PushDownRecords(env, cat, tables, colIdx, flat, k, removed);
    PushDownComplete(env, cat, tables, colIdx, flat, k, removed);
  }

  /** The passes from table k on: this table's pass in front of the later ones. */
  lemma PushDownCons(env: Env, cat: Catalog, tables: seq<string>, colIdx: map<string, IndexDesc>,
                     flat: seq<Predicate>, k: nat, removed: set<string>)
    requires k < |tables| && AllExist(cat, tables)
    ensures var pass := PushPass(env, tables[k], SchemaAt(cat, tables, k), colIdx, flat, Scan(tables[k]), removed);
            var rest := PushDownFrom(env, cat, tables, colIdx, flat, k + 1, pass.removed);
            var r := PushDownFrom(env, cat, tables, colIdx, flat, k, removed);
            && r.removed == rest.removed
            && Concat(r.pushed) == pass.pushed + Concat(rest.pushed)
  {
    var pass := PushPass(env, tables[k], SchemaAt(cat, tables, k), colIdx, flat, Scan(tables[k]), removed);
    var rest := PushDownFrom(env, cat, tables, colIdx, flat, k + 1, pass.removed);
    var r := PushDownFrom(env, cat, tables, colIdx, flat, k, removed);
    assert r.pushed == [pass.pushed] + rest.pushed;
    assert r.pushed[1..] == rest.pushed;
  }

  /** The texts the passes add are exactly those they pushed, new and distinct. */
  lemma {:induction false} PushDownRecords(env: Env, cat: Catalog, tables: seq<string>, colIdx: map<string, IndexDesc>,
                                           flat: seq<Predicate>, k: nat, removed: set<string>)
    requires k <= |tables| && AllExist(cat, tables)
    ensures var r := PushDownFrom(env, cat, tables, colIdx, flat, k, removed);
            && r.removed == removed + Texts(env, Concat(r.pushed))
            && DistinctTexts(env, Concat(r.pushed))
            && Texts(env, Concat(r.pushed)) !! removed
    decreases |tables| - k
  {
    if k < |tables| {
      var pass := PushPass(env, tables[k], SchemaAt(cat, tables, k), colIdx, flat, Scan(tables[k]), removed);
      PushPassRecords(env, tables[k], SchemaAt(cat, tables, k), colIdx, flat, Scan(tables[k]), removed);
      PushDownRecords(env, cat, tables, colIdx, flat, k + 1, pass.removed);
      PushDownCons(env, cat, tables, colIdx, flat, k, removed);
      var rest := PushDownFrom(env, cat, tables, colIdx, flat, k + 1, pass.removed);
      AppendTexts(env, pass.pushed, Concat(rest.pushed));
    }
  }

  /** Every literal-typed predicate valid for one of the tables has been applied
      by the end, and nothing applied before is forgotten. */
  lemma {:induction false} PushDownComplete(env: Env, cat: Catalog, tables: seq<string>, colIdx: map<string, IndexDesc>,
                                            flat: seq<Predicate>, k: nat, removed: set<string>)
    requires k <= |tables| && AllExist(cat, tables)
    ensures var r := PushDownFrom(env, cat, tables, colIdx, flat, k, removed);
            && removed <= r.removed
            && forall i, p :: k <= i < |tables| && p in flat && IsLiteral(p.rtype) && env.validate(p, SchemaAt(cat, tables, i))
                 ==> env.text(p) in r.removed
    decreases |tables| - k
  {
    if k < |tables| {
      var pass := PushPass(env, tables[k], SchemaAt(cat, tables, k), colIdx, flat, Scan(tables[k]), removed);
      PushPassComplete(env, tables[k], SchemaAt(cat, tables, k), colIdx, flat, Scan(tables[k]), removed);
      PushDownComplete(env, cat, tables, colIdx, flat, k + 1, pass.removed);
      PushDownCons(env, cat, tables, colIdx, flat, k, removed);
      var r := PushDownFrom(env, cat, tables, colIdx, flat, k, removed);
      assert pass.removed <= r.removed;
      forall i, p | k <= i < |tables| && p in flat && IsLiteral(p.rtype) && env.validate(p, SchemaAt(cat, tables, i))
        ensures env.text(p) in r.removed
      {
        if i == k {
          assert env.text(p) in pass.removed;
        }
      }
    }
  }

  // ---------------------------------------------------------------------------
  // Pending groups

  /** `ArrayList.remove(Object)`: drops the first element equal to `p`. */
  function RemoveFirst(l: seq<Predicate>, p: Predicate): seq<Predicate>
    decreases |l|
  {
    if |l| == 0 then []
    else if l[0] == p then l[1..]
    else [l[0]] + RemoveFirst(l[1..], p)
  }

  /** One pass over a group's original predicates: every literal-typed one is
      removed from the pending copy, applied or not. */
  function StripPass(orig: seq<Predicate>, cur: seq<Predicate>): seq<Predicate>
    decreases |orig|
  {
    if |orig| == 0 then cur
    else StripPass(orig[1..], if IsLiteral(orig[0].rtype) then RemoveFirst(cur, orig[0]) else cur)
  }

  function StripPasses(orig: seq<Predicate>, cur: seq<Predicate>, n: nat): seq<Predicate>
    decreases n
  {
    if n == 0 then cur else StripPasses(orig, StripPass(orig, cur), n - 1)
  }

  /** The pending groups after one pass per table. */
  function PendingGroups(groups: seq<seq<Predicate>>, n: nat): (r: seq<seq<Predicate>>)
    ensures |r| == |groups|
  {
    seq(|groups|, j requires 0 <= j < |groups| => StripPasses(groups[j], groups[j], n))
  }

  /** Reference: the predicates comparing a column with a column, in order. */
  function ColumnComparisons(ps: seq<Predicate>): (r: seq<Predicate>)
    ensures forall q :: q in r ==> q in ps && !IsLiteral(q.rtype)
    ensures forall q :: q in ps && !IsLiteral(q.rtype) ==> q in r
  {
    if |ps| == 0 then []
    else (if IsLiteral(ps[0].rtype) then [] else [ps[0]]) + ColumnComparisons(ps[1..])
  }

  lemma {:induction false} RemoveFirstAfter(a: seq<Predicate>, b: seq<Predicate>, p: Predicate)
    requires p !in a && |b| > 0 && b[0] == p
    ensures RemoveFirst(a + b, p) == a + b[1..]
  {
    if |a| == 0 {
      assert a + b == b;
    } else {
      assert (a + b)[1..] == a[1..] + b;
      RemoveFirstAfter(a[1..], b, p);
    }
  }

  lemma {:induction false} RemoveFirstAbsent(l: seq<Predicate>, p: Predicate)
    requires p !in l
    ensures RemoveFirst(l, p) == l
  {
    if |l| > 0 {
      RemoveFirstAbsent(l[1..], p);
    }
  }

  /** One step of the first pass over a literal-typed predicate: it is removed. */
  lemma StripPassLiteralStep(a: seq<Predicate>, b: seq<Predicate>)
    requires |b| > 0 && IsLiteral(b[0].rtype) && b[0] !in a
    ensures StripPass(b, a + b) == StripPass(b[1..], a + b[1..])
    ensures ColumnComparisons(b) == ColumnComparisons(b[1..])
  {
    RemoveFirstAfter(a, b, b[0]);
  }

  /** One step of the first pass over a column comparison: it stays in place. */
  lemma StripPassColumnStep(a: seq<Predicate>, b: seq<Predicate>)
    requires |b| > 0 && !IsLiteral(b[0].rtype)
    ensures StripPass(b, a + b) == StripPass(b[1..], (a + [b[0]]) + b[1..])
    ensures ColumnComparisons(b) == [b[0]] + ColumnComparisons(b[1..])
  {
    assert a + b == (a + [b[0]]) + b[1..];
  }

  /** The first pass over a group leaves exactly its column comparisons. */
  lemma {:induction false} StripPassFirst(a: seq<Predicate>, b: seq<Predicate>)
    requires forall q :: q in a ==> !IsLiteral(q.rtype)
    ensures StripPass(b, a + b) == a + ColumnComparisons(b)
    decreases |b|
  {
    if |b| == 0 {
      assert a + b == a;
    } else if IsLiteral(b[0].rtype) {
      StripPassLiteralStep(a, b);
      StripPassFirst(a, b[1..]);
    } else {
      StripPassColumnStep(a, b);
      StripPassFirst(a + [b[0]], b[1..]);
      assert (a + [b[0]]) + ColumnComparisons(b[1..]) == a + ([b[0]] + ColumnComparisons(b[1..]));
    }
  }

  /** A later pass over a group that holds no literal-typed predicate changes nothing. */
  lemma {:induction false} StripPassClean(orig: seq<Predicate>, cur: seq<Predicate>)
    requires forall q :: q in cur ==> !IsLiteral(q.rtype)
    ensures StripPass(orig, cur) == cur
    decreases |orig|
  {
    if |orig| > 0 {
      if IsLiteral(orig[0].rtype) {
        RemoveFirstAbsent(cur, orig[0]);
      }
      StripPassClean(orig[1..], cur);
    }
  }

  lemma {:induction false} StripPassesClean(orig: seq<Predicate>, cur: seq<Predicate>, n: nat)
    requires forall q :: q in cur ==> !IsLiteral(q.rtype)
    ensures StripPasses(orig, cur, n) == cur
    decreases n
  {
    if n > 0 {
      StripPassClean(orig, cur);
      StripPassesClean(orig, cur, n - 1);
    }
  }

  /** With at least one table, every literal-typed predicate has left its pending
      group, applied or not, and the column comparisons stay in their order. */
  lemma PendingAreColumnComparisons(groups: seq<seq<Predicate>>, n: nat)
    requires n >= 1
    ensures forall j :: 0 <= j < |groups| ==> PendingGroups(groups, n)[j] == ColumnComparisons(groups[j])
  {
    forall j | 0 <= j < |groups|
      ensures PendingGroups(groups, n)[j] == ColumnComparisons(groups[j])
    {
      StripPassesLeaveColumns(groups[j], n);
    }
  }

  /** One group after n >= 1 passes. */
  lemma StripPassesLeaveColumns(g: seq<Predicate>, n: nat)
    requires n >= 1
    ensures StripPasses(g, g, n) == ColumnComparisons(g)
  {
    StripPassFirst([], g);
    assert [] + g == g && [] + ColumnComparisons(g) == ColumnComparisons(g);
    StripPassesClean(g, ColumnComparisons(g), n - 1);
  }

  // ---------------------------------------------------------------------------
  // Join order

  datatype Joined = Joined(plan: Plan, schema: Schema)

  /** The cardinality lookup, failing where the Java dereferences a missing row. */
  function Stat(cat: Catalog, name: string): (r: Result<int32, CompileError>)
    ensures r.Success? <==> Cardinality(cat.rel, name).Some?
    ensures r.Success? ==> r.value == Cardinality(cat.rel, name).value
    ensures r.Failure? ==> r.error == MissingStatistics(name)
  {
    match Cardinality(cat.rel, name)
    case None => Failure(MissingStatistics(name))
    case Some(c) => Success(c)
  }

  predicate HasStats(cat: Catalog, name: string) {
    Cardinality(cat.rel, name).Some?
  }

  /** The running join over the first `n` tables. For table i >= 1: when table
      i-1 has fewer rows than table i the running result is the outer input,
      otherwise (ties included) table i is. */
  function JoinPrefix(cat: Catalog, tables: seq<string>, leaves: seq<Plan>, n: nat): Result<Joined, CompileError>
    requires 1 <= n <= |tables| && |leaves| == |tables| && AllExist(cat, tables)
    decreases n
  {
    if n == 1 then Success(Joined(leaves[0], SchemaAt(cat, tables, 0)))
    else
      var acc :- JoinPrefix(cat, tables, leaves, n - 1);
      var i := n - 1;
      var before :- Stat(cat, tables[i - 1]);
      var here :- Stat(cat, tables[i]);
      if before < here then
        Success(Joined(Join(acc.plan, leaves[i]), acc.schema + SchemaAt(cat, tables, i)))
      else
        Success(Joined(Join(leaves[i], acc.plan), SchemaAt(cat, tables, i) + acc.schema))
  }

  /** Position of the first of the first `n` tables without a row count. */
  function FirstWithoutStats(cat: Catalog, tables: seq<string>, n: nat): (r: Option<nat>)
    requires n <= |tables|
    ensures r.None? <==> forall i :: 0 <= i < n ==> HasStats(cat, tables[i])
    ensures r.Some? ==> r.value < n && !HasStats(cat, tables[r.value])
    ensures r.Some? ==> forall i :: 0 <= i < r.value ==> HasStats(cat, tables[i])
    decreases n
  {
    if n == 0 then None
    else
      match FirstWithoutStats(cat, tables, n - 1)
      case Some(k) => Some(k)
      case None => if HasStats(cat, tables[n - 1]) then None else Some(n - 1)
  }

  /** The running join fails iff two or more tables are joined and one of them
      has no row count; the error names the first such table. */
  lemma {:induction false} JoinPrefixFailure(cat: Catalog, tables: seq<string>, leaves: seq<Plan>, n: nat)
    requires 1 <= n <= |tables| && |leaves| == |tables| && AllExist(cat, tables)
    ensures var r := JoinPrefix(cat, tables, leaves, n);
            var first := FirstWithoutStats(cat, tables, n);
            && (r.Failure? <==> n >= 2 && first.Some?)
            && (r.Failure? ==> r.error == MissingStatistics(tables[first.value]))
    decreases n
  {
    if n == 2 {
      JoinPrefixStep(cat, tables, leaves, n);
      FirstWithoutStatsStep(cat, tables, 2);
      assert FirstWithoutStats(cat, tables, 0).None?;
      assert JoinPrefix(cat, tables, leaves, 1).Success?;
    } else if n > 2 {
      JoinPrefixStep(cat, tables, leaves, n);
      JoinPrefixFailure(cat, tables, leaves, n - 1);
      FirstWithoutStatsStep(cat, tables, n);
      if JoinPrefix(cat, tables, leaves, n - 1).Failure? {
        assert FirstWithoutStats(cat, tables, n - 1).Some?;
      } else {
        assert FirstWithoutStats(cat, tables, n - 1).None?;
      }
    }
  }

  /** The first table without a row count among the first n: among the first n-1
      if there is one, otherwise table n-1 when it has none. */
  lemma FirstWithoutStatsStep(cat: Catalog, tables: seq<string>, n: nat)
    requires 1 <= n <= |tables|
    ensures var prev := FirstWithoutStats(cat, tables, n - 1);
            FirstWithoutStats(cat, tables, n)
              == if prev.Some? then prev else if HasStats(cat, tables[n - 1]) then None else Some(n - 1)
  {
  }

  /** One join step fails when the running join failed (with the same error) or
      when either of the two tables it compares has no row count, the earlier
      one reported first. */
  lemma JoinPrefixStep(cat: Catalog, tables: seq<string>, leaves: seq<Plan>, n: nat)
    requires 2 <= n <= |tables| && |leaves| == |tables| && AllExist(cat, tables)
    ensures var prev := JoinPrefix(cat, tables, leaves, n - 1);
            var r := JoinPrefix(cat, tables, leaves, n);
            && (r.Failure? <==> prev.Failure? || !HasStats(cat, tables[n - 2]) || !HasStats(cat, tables[n - 1]))
            && (prev.Failure? ==> r == prev)
            && (prev.Success? && !HasStats(cat, tables[n - 2]) ==> r == Failure(MissingStatistics(tables[n - 2])))
            && (prev.Success? && HasStats(cat, tables[n - 2]) && !HasStats(cat, tables[n - 1]) ==>
                  r == Failure(MissingStatistics(tables[n - 1])))
  {
  }

  /** The outer/inner rule at step i = n-1, in terms of the two adjacent tables. */
  lemma JoinOrderRule(cat: Catalog, tables: seq<string>, leaves: seq<Plan>, n: nat)
    requires 2 <= n <= |tables| && |leaves| == |tables| && AllExist(cat, tables)
    requires JoinPrefix(cat, tables, leaves, n).Success?
    ensures var prev := JoinPrefix(cat, tables, leaves, n - 1).value;
            var r := JoinPrefix(cat, tables, leaves, n).value;
            var a := Cardinality(cat.rel, tables[n - 2]).value;
            var b := Cardinality(cat.rel, tables[n - 1]).value;
            && (a < b ==> r.plan == Join(prev.plan, leaves[n - 1]) && r.schema == prev.schema + SchemaAt(cat, tables, n - 1))
            && (b <= a ==> r.plan == Join(leaves[n - 1], prev.plan) && r.schema == SchemaAt(cat, tables, n - 1) + prev.schema)
  {
  }

  /** Every leaf goes into the join tree exactly once. */
  lemma {:induction false} JoinUsesEachLeafOnce(cat: Catalog, tables: seq<string>, leaves: seq<Plan>, n: nat)
    requires 1 <= n <= |tables| && |leaves| == |tables| && AllExist(cat, tables)
    requires forall i :: 0 <= i < |leaves| ==> !leaves[i].Join?
    requires JoinPrefix(cat, tables, leaves, n).Success?
    ensures multiset(JoinInputs(JoinPrefix(cat, tables, leaves, n).value.plan)) == multiset(leaves[..n])
    decreases n
  {
    if n > 1 {
      JoinUsesEachLeafOnce(cat, tables, leaves, n - 1);
      JoinStep(cat, tables, leaves, n);
      var prev := JoinPrefix(cat, tables, leaves, n - 1).value.plan;
      var r := JoinPrefix(cat, tables, leaves, n).value.plan;
      var leaf := leaves[n - 1];
      assert !leaf.Join?;
      JoinStepInputs(prev, leaf, r, multiset(leaves[..n - 1]));
      PrefixSnoc(leaves, n);
    } else {
      assert leaves[..1] == [leaves[0]];
    }
  }

  lemma PrefixSnoc<T>(xs: seq<T>, n: nat)
    requires 1 <= n <= |xs|
    ensures multiset(xs[..n]) == multiset(xs[..n - 1]) + multiset{xs[n - 1]}
  {
    assert xs[..n] == xs[..n - 1] + [xs[n - 1]];
  }

  /** Joining one more non-join input on either side adds exactly that input. */
  lemma JoinStepInputs(prev: Plan, leaf: Plan, r: Plan, inputs: multiset<Plan>)
    requires !leaf.Join? && multiset(JoinInputs(prev)) == inputs
    requires r == Join(prev, leaf) || r == Join(leaf, prev)
    ensures multiset(JoinInputs(r)) == inputs + multiset{leaf}
  {
    assert JoinInputs(leaf) == [leaf];
  }

  /** Each join step puts the next leaf on one side of the running join. */
  lemma JoinStep(cat: Catalog, tables: seq<string>, leaves: seq<Plan>, n: nat)
    requires 2 <= n <= |tables| && |leaves| == |tables| && AllExist(cat, tables)
    requires JoinPrefix(cat, tables, leaves, n).Success?
    ensures JoinPrefix(cat, tables, leaves, n - 1).Success?
    ensures var prev := JoinPrefix(cat, tables, leaves, n - 1).value.plan;
            var r := JoinPrefix(cat, tables, leaves, n).value.plan;
            r == Join(prev, leaves[n - 1]) || r == Join(leaves[n - 1], prev)
  {
  }

  /** The running schema is the schema of the running join tree, provided each
      leaf produces its table's schema. */
  lemma {:induction false} JoinSchemaTracksPlan(cat: Catalog, tables: seq<string>, leaves: seq<Plan>, n: nat)
    requires 1 <= n <= |tables| && |leaves| == |tables| && AllExist(cat, tables)
    requires forall i :: 0 <= i < |leaves| ==> SchemaOf(cat, leaves[i]) == Some(SchemaAt(cat, tables, i))
    requires JoinPrefix(cat, tables, leaves, n).Success?
    ensures SchemaOf(cat, JoinPrefix(cat, tables, leaves, n).value.plan) == Some(JoinPrefix(cat, tables, leaves, n).value.schema)
    decreases n
  {
    if n > 1 {
      JoinSchemaTracksPlan(cat, tables, leaves, n - 1);
    }
  }

  // ---------------------------------------------------------------------------
  // Filter chain

  /** Wraps each later group around the accumulated plan, skipping empty groups. */
  function StackFilters(acc: Plan, groups: seq<seq<Predicate>>): Plan
    decreases |groups|
  {
    if |groups| == 0 then acc
    else StackFilters(if |groups[0]| != 0 then Filter(acc, groups[0]) else acc, groups[1..])
  }

  /** Group 0 always becomes a Filter, even when empty; later groups only when
      non-empty; with no groups at all a single always-true Filter is used. */
  function FilterChain(joined: Plan, pending: seq<seq<Predicate>>): Plan {
    if |pending| > 0 then StackFilters(Filter(joined, pending[0]), pending[1..])
    else Filter(joined, [AlwaysTrue])
  }

  /** Reference: `layers` as Filters over `base`, the first layer innermost. */
  function Layered(base: Plan, layers: seq<seq<Predicate>>): Plan
    decreases |layers|
  {
    if |layers| == 0 then base
    else Filter(Layered(base, layers[..|layers| - 1]), layers[|layers| - 1])
  }

  function NonEmpty(groups: seq<seq<Predicate>>): (r: seq<seq<Predicate>>)
    ensures forall g :: g in r ==> |g| > 0 && g in groups
  {
    if |groups| == 0 then []
    else (if |groups[0]| != 0 then [groups[0]] else []) + NonEmpty(groups[1..])
  }

  /** The predicate lists of the Filter chain, innermost first. */
  function FilterLayers(pending: seq<seq<Predicate>>): seq<seq<Predicate>> {
    if |pending| > 0 then [pending[0]] + NonEmpty(pending[1..]) else [[AlwaysTrue]]
  }

  lemma {:induction false} LayeredAppend(base: Plan, a: seq<seq<Predicate>>, b: seq<seq<Predicate>>)
    ensures Layered(base, a + b) == Layered(Layered(base, a), b)
    decreases |b|
  {
    if |b| == 0 {
      assert a + b == a;
    } else {
      assert (a + b)[..|a + b| - 1] == a + b[..|b| - 1];
      LayeredAppend(base, a, b[..|b| - 1]);
    }
  }

  lemma {:induction false} StackFiltersLayers(acc: Plan, groups: seq<seq<Predicate>>)
    ensures StackFilters(acc, groups) == Layered(acc, NonEmpty(groups))
    decreases |groups|
  {
    if |groups| > 0 {
      var g := groups[0];
      StackFiltersLayers(if |g| != 0 then Filter(acc, g) else acc, groups[1..]);
      if |g| != 0 {
        LayeredAppend(acc, [g], NonEmpty(groups[1..]));
        assert Layered(acc, [g]) == Filter(acc, g) by {
          assert [g][..0] == [];
        }
      } else {
        assert NonEmpty(groups) == NonEmpty(groups[1..]);
      }
    }
  }

  /** The Filter chain is the join tree wrapped in one Filter per layer, in order. */
  lemma FilterChainShape(joined: Plan, pending: seq<seq<Predicate>>)
    ensures FilterChain(joined, pending) == Layered(joined, FilterLayers(pending))
    ensures |FilterLayers(pending)| >= 1
  {
    if |pending| > 0 {
      StackFiltersLayers(Filter(joined, pending[0]), pending[1..]);
      LayeredAppend(joined, [pending[0]], NonEmpty(pending[1..]));
      assert Layered(joined, [pending[0]]) == Filter(joined, pending[0]) by {
        assert [pending[0]][..0] == [];
      }
    } else {
      assert [[AlwaysTrue]][..0] == [];
    }
  }

  lemma {:induction false} LayeredKeepsSchema(cat: Catalog, base: Plan, layers: seq<seq<Predicate>>)
    ensures SchemaOf(cat, Layered(base, layers)) == SchemaOf(cat, base)
    decreases |layers|
  {
    if |layers| > 0 {
      LayeredKeepsSchema(cat, base, layers[..|layers| - 1]);
    }
  }

  // ---------------------------------------------------------------------------
  // Projection list

  function Identity(n: nat): (r: seq<nat>)
    ensures |r| == n && forall i :: 0 <= i < n ==> r[i] == i
  {
    seq(n, i => i)
  }

  /** Position of the first requested column the schema does not have. */
  function FirstUnknown(schema: Schema, columns: seq<string>): (r: Option<nat>)
    ensures r.None? <==> forall i :: 0 <= i < |columns| ==> FieldNumber(schema, columns[i]).Some?
    ensures r.Some? ==> r.value < |columns| && FieldNumber(schema, columns[r.value]).None?
    ensures r.Some? ==> forall j :: 0 <= j < r.value ==> FieldNumber(schema, columns[j]).Some?
  {
    if |columns| == 0 then None
    else if FieldNumber(schema, columns[0]).None? then Some(0)
    else
      match FirstUnknown(schema, columns[1..])
      case None => None
      case Some(k) => Some(k + 1)
  }

  /** `fieldNumber` of each requested column, failing at the first unknown one. */
  function Positions(schema: Schema, columns: seq<string>): (r: Result<seq<nat>, CompileError>)
    ensures r.Failure? <==> FirstUnknown(schema, columns).Some?
    ensures r.Failure? ==> r.error == UnknownColumn(columns[FirstUnknown(schema, columns).value])
    ensures r.Success? ==> |r.value| == |columns|
    ensures r.Success? ==> forall i :: 0 <= i < |columns| ==> FieldNumber(schema, columns[i]) == Some(r.value[i])
  {
    if |columns| == 0 then Success([])
    else
      match FieldNumber(schema, columns[0])
      case None => Failure(UnknownColumn(columns[0]))
      case Some(k) =>
        var rest :- Positions(schema, columns[1..]);
        PositionsCons(schema, columns, k, rest);
        Success([k] + rest)
  }

  /** The positions of a column list are the first column's followed by the rest's. */
  lemma PositionsCons(schema: Schema, columns: seq<string>, k: nat, rest: seq<nat>)
    requires |columns| > 0 && FieldNumber(schema, columns[0]) == Some(k) && |rest| == |columns| - 1
    requires forall i :: 0 <= i < |rest| ==> FieldNumber(schema, columns[1..][i]) == Some(rest[i])
    ensures forall i :: 0 <= i < |columns| ==> FieldNumber(schema, columns[i]) == Some(([k] + rest)[i])
  {
    forall i | 0 <= i < |columns|
      ensures FieldNumber(schema, columns[i]) == Some(([k] + rest)[i])
    {
      if i > 0 {
        assert columns[i] == columns[1..][i - 1];
      }
    }
  }

  /** The Projection's position list over the joined schema: the identity when no
      column was requested, otherwise the position of each requested column. */
  function ProjectionList(schema: Schema, columns: seq<string>): (r: Result<seq<nat>, CompileError>)
    ensures |columns| == 0 ==> r == Success(Identity(|schema|))
    ensures |columns| > 0 ==> r.Success? <==> forall i :: 0 <= i < |columns| ==> FieldNumber(schema, columns[i]).Some?
    ensures r.Success? ==> Projections.InRange(r.value, |schema|)
    ensures r.Success? && |columns| > 0 ==> |r.value| == |columns|
    ensures r.Success? && |columns| > 0 ==> forall i :: 0 <= i < |columns| ==> FieldNumber(schema, columns[i]) == Some(r.value[i])
  {
    if |columns| > 0 then Positions(schema, columns) else Success(Identity(|schema|))
  }

  // ---------------------------------------------------------------------------
  // The compiler

  /** Compiles a SELECT statement. Unknown tables are reported before anything
      else is built. */
  function Compile(env: Env, cat: Catalog, q: Query): (r: Result<Compiled, CompileError>)
    ensures !AllExist(cat, q.tables) ==>
              r.Failure? && r.error.UnknownTable? && r.error.name in q.tables && r.error.name !in cat.tables
    ensures !AllExist(cat, q.tables) ==> r == Failure(UnknownTable(q.tables[FirstMissing(cat, q.tables).value]))
    ensures AllExist(cat, q.tables) && |q.tables| == 0 ==> r == Failure(NoTables)
    ensures r.Success? ==> |r.value.leaves| == |q.tables| && r.value.root == Project(r.value.filtered, r.value.cols)
    ensures r.Success? ==> Projections.InRange(r.value.cols, |r.value.schema|)
    ensures r.Success? ==> r.value.output == Projections.Pick(r.value.schema, r.value.cols)
  {
    var missing := FirstMissing(cat, q.tables);
    if missing.Some? then Failure(UnknownTable(q.tables[missing.value]))
    else if |q.tables| == 0 then Failure(NoTables)
    else
      var colIdx := ColumnIndexes(cat, q.tables);
      var pd := PushDownFrom(env, cat, q.tables, colIdx, Concat(q.groups), 0, {});
      var pending := PendingGroups(q.groups, |q.tables|);
      var joined :- JoinPrefix(cat, q.tables, pd.leaves, |q.tables|);
      var filtered := FilterChain(joined.plan, pending);
      var cols :- ProjectionList(joined.schema, q.columns);
      Success(Compiled(pd.leaves, joined.plan, filtered, Project(filtered, cols), cols, joined.schema,
                       Projections.Pick(joined.schema, cols)))
  }

  /** Compile put together from its stages: the leaves of the push-down, the
      running join over them, the Filter chain of the pending groups and the
      projection list. */
  lemma CompileFromStages(env: Env, cat: Catalog, q: Query, leaves: seq<Plan>, joined: Joined, cols: seq<nat>)
    requires AllExist(cat, q.tables) && |q.tables| >= 1
    requires PushDownFrom(env, cat, q.tables, ColumnIndexes(cat, q.tables), Concat(q.groups), 0, {}).leaves == leaves
    requires JoinPrefix(cat, q.tables, leaves, |q.tables|) == Success(joined)
    requires ProjectionList(joined.schema, q.columns) == Success(cols)
    ensures var filtered := FilterChain(joined.plan, PendingGroups(q.groups, |q.tables|));
            Compile(env, cat, q)
              == Success(Compiled(leaves, joined.plan, filtered, Project(filtered, cols), cols, joined.schema,
                                  Projections.Pick(joined.schema, cols)))
  {
  }
}

=== FILE: select_properties.dfy ===
/** Properties of whole compilations. */
module SelectProperties {
  import opened Wrappers
  import opened Relational
  import opened Catalogs
  import opened Plans
  import Projections
  import opened SelectCompiler

  /** The stages of a successful compilation, unfolded once. */
  lemma CompiledStages(env: Env, cat: Catalog, q: Query)
    requires Compile(env, cat, q).Success?
    ensures AllExist(cat, q.tables) && |q.tables| >= 1
    ensures var c := Compile(env, cat, q).value;
            var colIdx := ColumnIndexes(cat, q.tables);
            var pd := PushDownFrom(env, cat, q.tables, colIdx, Concat(q.groups), 0, {});
            var j := JoinPrefix(cat, q.tables, pd.leaves, |q.tables|);
            && c.leaves == pd.leaves
            && j.Success? && c.joined == j.value.plan && c.schema == j.value.schema
            && c.filtered == FilterChain(c.joined, PendingGroups(q.groups, |q.tables|))
            && ProjectionList(c.schema, q.columns) == Success(c.cols)
  {
  }

  /** The Filter layers above the join when every group keeps only its column
      comparisons. */
  function PostJoinLayers(groups: seq<seq<Predicate>>): seq<seq<Predicate>> {
    FilterLayers(seq(|groups|, j requires 0 <= j < |groups| => ColumnComparisons(groups[j])))
  }

  /** Each table's leaf is its scan exactly when its pass applied nothing, and
      otherwise the access path of the LAST predicate it applied. The applied
      predicates are, in statement order, those applicable to that table, the
      first per text, leaving out every text applicable to an earlier table. The
      access path is a key scan keyed on the predicate's right operand over the
      index the map holds for its column (the last one declared across the
      tables, read from the heap file named after that index), or a one-predicate
      Filter over the scan when the column has no index. */
  lemma CompiledLeafChoice(env: Env, cat: Catalog, q: Query, i: nat)
    requires Compile(env, cat, q).Success? && i < |q.tables|
    ensures AllExist(cat, q.tables)
    ensures var flat := Concat(q.groups);
            var applied := Applied(env, SchemaAt(cat, q.tables, i), ApplicableTexts(env, cat, q.tables, flat, 0, i), flat);
            var leaf := Compile(env, cat, q).value.leaves[i];
            var all := AllIndexes(cat, q.tables);
            && (leaf == Scan(q.tables[i]) <==> |applied| == 0)
            && (|applied| > 0 ==>
                  var p := applied[|applied| - 1];
                  leaf == if p.left.StrValue? && LastOn(all, p.left.s).Some? then
                            KeyScanLeaf(q.tables[i], LastOn(all, p.left.s).value.indexName, p.right,
                                        LastOn(all, p.left.s).value.indexName)
                          else Filter(Scan(q.tables[i]), [p]))
  {
    CompiledLeaves(env, cat, q);
    var flat := Concat(q.groups);
    var pd := PushDownFrom(env, cat, q.tables, ColumnIndexes(cat, q.tables), flat, 0, {});
    PushDownLog(env, cat, q.tables, flat, i);
    var applied := Applied(env, SchemaAt(cat, q.tables, i), ApplicableTexts(env, cat, q.tables, flat, 0, i), flat);
    assert Compile(env, cat, q).value.leaves[i] == LeafAfter(q.tables[i], ColumnIndexes(cat, q.tables), applied);
    LeafChoice(cat, q.tables, q.tables[i], applied);
  }

  /** The leaves of a successful compilation are those of its push-down. */
  lemma CompiledLeaves(env: Env, cat: Catalog, q: Query)
    requires Compile(env, cat, q).Success?
    ensures AllExist(cat, q.tables)
    ensures Compile(env, cat, q).value.leaves
         == PushDownFrom(env, cat, q.tables, ColumnIndexes(cat, q.tables), Concat(q.groups), 0, {}).leaves
  {
    CompiledStages(env, cat, q);
  }

  /** The log of table i's pass in a whole push-down, and its leaf. */
  lemma PushDownLog(env: Env, cat: Catalog, tables: seq<string>, flat: seq<Predicate>, i: nat)
    requires AllExist(cat, tables) && i < |tables|
    ensures var colIdx := ColumnIndexes(cat, tables);
            var pd := PushDownFrom(env, cat, tables, colIdx, flat, 0, {});
            && pd.pushed[i] == Applied(env, SchemaAt(cat, tables, i), ApplicableTexts(env, cat, tables, flat, 0, i), flat)
            && pd.leaves[i] == LeafAfter(tables[i], colIdx, pd.pushed[i])
  {
    var colIdx := ColumnIndexes(cat, tables);
    var pd := PushDownFrom(env, cat, tables, colIdx, flat, 0, {});
    PushDownInOrder(env, cat, tables, colIdx, flat, 0, {});
    assert var r := PushDownFrom(env, cat, tables, colIdx, flat, 0, {});
           forall j :: 0 <= j < |r.pushed| ==>
             r.pushed[j] == Applied(env, SchemaAt(cat, tables, 0 + j), {} + ApplicableTexts(env, cat, tables, flat, 0, 0 + j), flat);
    assert pd.pushed[i] == Applied(env, SchemaAt(cat, tables, 0 + i), {} + ApplicableTexts(env, cat, tables, flat, 0, 0 + i), flat);
    assert {} + ApplicableTexts(env, cat, tables, flat, 0, i) == ApplicableTexts(env, cat, tables, flat, 0, i);
    assert pd.leaves[i] == LeafAfter(tables[0 + i], colIdx, pd.pushed[i]);
  }

  /** A table's leaf after a pass that applied `pushed`, in terms of the indexes
      the tables declare. */
  lemma LeafChoice(cat: Catalog, tables: seq<string>, table: string, pushed: seq<Predicate>)
    requires AllExist(cat, tables)
    ensures var leaf := LeafAfter(table, ColumnIndexes(cat, tables), pushed);
            var all := AllIndexes(cat, tables);
            && (leaf == Scan(table) <==> |pushed| == 0)
            && (|pushed| > 0 ==>
                  var p := pushed[|pushed| - 1];
                  leaf == if p.left.StrValue? && LastOn(all, p.left.s).Some? then
                            KeyScanLeaf(table, LastOn(all, p.left.s).value.indexName, p.right,
                                        LastOn(all, p.left.s).value.indexName)
                          else Filter(Scan(table), [p]))
  {
    if |pushed| > 0 {
      var p := pushed[|pushed| - 1];
      if p.left.StrValue? {
        ColumnIndexesShadow(cat, tables, p.left.s);
      }
    }
  }

  /** Whatever a pass pushed, a table's leaf produces the table's schema. */
  lemma LeafAfterSchema(cat: Catalog, table: string, colIdx: map<string, IndexDesc>, pushed: seq<Predicate>)
    ensures SchemaOf(cat, LeafAfter(table, colIdx, pushed)) == TableSchema(cat, table)
  {
  }

  /** Every leaf of the push-down produces its own table's schema. */
  lemma LeavesWellTyped(env: Env, cat: Catalog, tables: seq<string>, colIdx: map<string, IndexDesc>, flat: seq<Predicate>)
    requires AllExist(cat, tables)
    ensures var leaves := PushDownFrom(env, cat, tables, colIdx, flat, 0, {}).leaves;
            forall i :: 0 <= i < |leaves| ==> SchemaOf(cat, leaves[i]) == Some(SchemaAt(cat, tables, i))
  {
    var pd := PushDownFrom(env, cat, tables, colIdx, flat, 0, {});
    forall i | 0 <= i < |pd.leaves|
      ensures SchemaOf(cat, pd.leaves[i]) == Some(SchemaAt(cat, tables, i))
    {
      assert pd.leaves[i] == LeafAfter(tables[0 + i], colIdx, pd.pushed[i]);
      LeafAfterSchema(cat, tables[i], colIdx, pd.pushed[i]);
    }
  }

  /** Over well-typed leaves, the join tree produces the running schema and any
      Filter chain over it keeps that schema. */
  lemma JoinAndFiltersWellTyped(cat: Catalog, tables: seq<string>, leaves: seq<Plan>, pending: seq<seq<Predicate>>)
    requires 1 <= |tables| && |leaves| == |tables| && AllExist(cat, tables)
    requires forall i :: 0 <= i < |leaves| ==> SchemaOf(cat, leaves[i]) == Some(SchemaAt(cat, tables, i))
    requires JoinPrefix(cat, tables, leaves, |tables|).Success?
    ensures var j := JoinPrefix(cat, tables, leaves, |tables|).value;
            && SchemaOf(cat, j.plan) == Some(j.schema)
            && SchemaOf(cat, FilterChain(j.plan, pending)) == Some(j.schema)
  {
    var j := JoinPrefix(cat, tables, leaves, |tables|).value;
    JoinSchemaTracksPlan(cat, tables, leaves, |tables|);
    FilterChainShape(j.plan, pending);
    LayeredKeepsSchema(cat, j.plan, FilterLayers(pending));
  }

  /** The joined schema is the schema the join tree produces, the Filter chain
      keeps it, and the root produces the output schema. */
  lemma CompiledPlanWellTyped(env: Env, cat: Catalog, q: Query)
    requires Compile(env, cat, q).Success?
    ensures var c := Compile(env, cat, q).value;
            && SchemaOf(cat, c.joined) == Some(c.schema)
            && SchemaOf(cat, c.filtered) == Some(c.schema)
            && SchemaOf(cat, c.root) == Some(c.output)
  {
    CompiledStages(env, cat, q);
    var c := Compile(env, cat, q).value;
    LeavesWellTyped(env, cat, q.tables, ColumnIndexes(cat, q.tables), Concat(q.groups));
    JoinAndFiltersWellTyped(cat, q.tables, c.leaves, PendingGroups(q.groups, |q.tables|));
    assert SchemaOf(cat, Project(c.filtered, c.cols)) == Some(Projections.Pick(c.schema, c.cols));
  }

  /** Every table's leaf enters the join tree exactly once. */
  lemma CompiledJoinCoversLeaves(env: Env, cat: Catalog, q: Query)
    requires Compile(env, cat, q).Success?
    ensures var c := Compile(env, cat, q).value;
            multiset(JoinInputs(c.joined)) == multiset(c.leaves)
  {
    CompiledStages(env, cat, q);
    var c := Compile(env, cat, q).value;
    JoinUsesEachLeafOnce(cat, q.tables, c.leaves, |q.tables|);
    assert c.leaves[..|q.tables|] == c.leaves;
  }

  /** No literal-typed predicate is left in a post-join layer. */
  lemma PostJoinLayersCompareColumns(groups: seq<seq<Predicate>>)
    ensures forall l, p :: l in PostJoinLayers(groups) && p in l ==> !IsLiteral(p.rtype)
  {
    var stripped := seq(|groups|, j requires 0 <= j < |groups| => ColumnComparisons(groups[j]));
    forall l, p | l in PostJoinLayers(groups) && p in l
      ensures !IsLiteral(p.rtype)
    {
      if |stripped| == 0 {
        assert l == [AlwaysTrue];
      } else if l != stripped[0] {
        assert l in NonEmpty(stripped[1..]);
        assert l in stripped[1..];
        var j :| 1 <= j < |stripped| && stripped[j] == l;
      }
    }
  }

  /** Above the join sit one Filter for group 0 and one per later non-empty
      group, each holding that group's column comparisons, or the always-true
      Filter when there are no groups. */
  lemma CompiledPostJoinFilters(env: Env, cat: Catalog, q: Query)
    requires Compile(env, cat, q).Success?
    ensures var c := Compile(env, cat, q).value;
            c.filtered == Layered(c.joined, PostJoinLayers(q.groups))
  {
    CompiledStages(env, cat, q);
    var c := Compile(env, cat, q).value;
    FilterChainOverPending(c.joined, q.groups, |q.tables|);
  }

  lemma FilterChainOverPending(joined: Plan, groups: seq<seq<Predicate>>, n: nat)
    requires n >= 1
    ensures FilterChain(joined, PendingGroups(groups, n)) == Layered(joined, PostJoinLayers(groups))
  {
    var pending := PendingGroups(groups, n);
    var stripped := seq(|groups|, j requires 0 <= j < |groups| => ColumnComparisons(groups[j]));
    PendingAreColumnComparisons(groups, n);
    assert pending == stripped;
    FilterChainShape(joined, pending);
  }

  /** With no requested columns the output is the joined schema unchanged;
      otherwise output field i is the first joined field named after requested
      column i. */
  lemma CompiledOutputColumns(env: Env, cat: Catalog, q: Query)
    requires Compile(env, cat, q).Success?
    ensures var c := Compile(env, cat, q).value;
            && (|q.columns| == 0 ==> c.output == c.schema)
            && (|q.columns| > 0 ==>
                  (|c.output| == |q.columns| && forall i :: 0 <= i < |q.columns| ==> c.output[i].name == q.columns[i]))
  {
    CompiledStages(env, cat, q);
    var c := Compile(env, cat, q).value;
    if |q.columns| == 0 {
      Projections.IdentityPick(c.schema, c.cols);
    }
  }

  /** Tables A(a) with 10 rows and B(b) with 1000 rows, for `SmallerTableIsOuter`. */
  const FieldA := Field(IntegerType, 4, "a")
  const FieldB := Field(IntegerType, 4, "b")
  const CatalogAB := Catalog(map["A" := TableInfo([FieldA], []), "B" := TableInfo([FieldB], [])],
                             [RelRow("A", 10), RelRow("B", 1000)])
  /** `SELECT * FROM A, B`. */
  const QueryAB := Query(["A", "B"], [], [])

  /** Two tables joined with no predicates: the one with fewer rows (10 against
      1000) is the outer input, and all fields are projected. */
  lemma SmallerTableIsOuter(env: Env)
    ensures var r := Compile(env, CatalogAB, QueryAB);
            && r.Success?
            && r.value.joined == Join(Scan("A"), Scan("B"))
            && r.value.root == Project(Filter(Join(Scan("A"), Scan("B")), [AlwaysTrue]), [0, 1])
            && r.value.output == [FieldA, FieldB]
  {
    var leaves := [Scan("A"), Scan("B")];
    BothScans(env);
    var joined := Joined(Join(Scan("A"), Scan("B")), [FieldA, FieldB]);
    SmallerFirstJoin();
    assert PendingGroups(QueryAB.groups, 2) == [];
    assert Identity(2) == [0, 1];
    CompileFromStages(env, CatalogAB, QueryAB, leaves, joined, [0, 1]);
  }

  /** The join of `SmallerTableIsOuter`: A has fewer rows, so the running join
      (A's scan) stays the outer input. */
  lemma SmallerFirstJoin()
    ensures AllExist(CatalogAB, QueryAB.tables)
    ensures JoinPrefix(CatalogAB, QueryAB.tables, [Scan("A"), Scan("B")], 2)
              == Success(Joined(Join(Scan("A"), Scan("B")), [FieldA, FieldB]))
  {
    var leaves := [Scan("A"), Scan("B")];
    assert FirstMissing(CatalogAB, QueryAB.tables).None?;
    assert Cardinality(CatalogAB.rel, "A") == Some(10);
    assert Cardinality(CatalogAB.rel, "B") == Some(1000);
    assert Stat(CatalogAB, "A") == Success(10) && Stat(CatalogAB, "B") == Success(1000);
    assert SchemaAt(CatalogAB, QueryAB.tables, 0) == [FieldA] && SchemaAt(CatalogAB, QueryAB.tables, 1) == [FieldB];
    assert JoinPrefix(CatalogAB, QueryAB.tables, leaves, 1) == Success(Joined(Scan("A"), [FieldA]));
    JoinPrefixStep(CatalogAB, QueryAB.tables, leaves, 2);
    JoinOrderRule(CatalogAB, QueryAB.tables, leaves, 2);
    assert [FieldA] + [FieldB] == [FieldA, FieldB];
  }

  /** The push-down of `SmallerTableIsOuter`: with no predicates each leaf is its scan. */
  lemma BothScans(env: Env)
    ensures AllExist(CatalogAB, QueryAB.tables)
    ensures PushDownFrom(env, CatalogAB, QueryAB.tables, ColumnIndexes(CatalogAB, QueryAB.tables),
                         Concat(QueryAB.groups), 0, {}).leaves == [Scan("A"), Scan("B")]
  {
    assert FirstMissing(CatalogAB, QueryAB.tables).None?;
    assert Concat(QueryAB.groups) == [];
  }

  /** Table Emp(id, name, dept) with 3 rows and the hash index EmpId on `id`, for
      `IndexedPointQuery` and `KeyScanWhateverOperator`. */
  const EmpSchema := [Field(IntegerType, 4, "id"), Field(StringType, 20, "name"), Field(StringType, 20, "dept")]
  const EmpCatalog := Catalog(map["Emp" := TableInfo(EmpSchema, [IndexDesc("EmpId", "id")])], [RelRow("Emp", 3)])
  /** `id <op> 2`. */
  function IdVs2(op: CompOp): Predicate {
    Predicate(op, ColName, StrValue("id"), IntegerType, IntValue(2))
  }
  const IdIs2 := IdVs2(Eq)
  /** `SELECT name FROM Emp WHERE id <op> 2`. */
  function EmpQueryOn(op: CompOp): Query {
    Query(["Emp"], ["name"], [[IdVs2(op)]])
  }
  const EmpQuery := EmpQueryOn(Eq)
  const EmpIdLeaf := KeyScanLeaf("Emp", "EmpId", IntValue(2), "EmpId")

  /** A validator that accepts predicates whose left operand names a field of the schema. */
  function NamesAField(text: Predicate -> string): Env {
    Env((p: Predicate, s: Schema) => p.left.StrValue? && FieldNumber(s, p.left.s).Some?, text)
  }

  /** `SELECT name FROM Emp WHERE id = 2` with a hash index on `id`: the table's
      leaf is a key scan on 2, group 0 becomes an empty pass-through Filter, and
      only the `name` field is projected. */
  lemma IndexedPointQuery(text: Predicate -> string)
    ensures var r := Compile(NamesAField(text), EmpCatalog, EmpQuery);
            && r.Success?
            && r.value.root == Project(Filter(EmpIdLeaf, []), [1])
            && r.value.output == [Field(StringType, 20, "name")]
  {
    KeyScanWhateverOperator(text, Eq);
  }

  /** As written, the key scan ignores the comparison: `id > 2`, `id < 2` or
      `id <> 2` on the indexed `id` compile to exactly the plan of `id = 2`, a key
      scan that reads only the rows keyed 2, and the comparison itself is applied
      nowhere. */
  lemma KeyScanWhateverOperator(text: Predicate -> string, op: CompOp)
    ensures var r := Compile(NamesAField(text), EmpCatalog, EmpQueryOn(op));
            && r.Success?
            && r.value.root == Project(Filter(EmpIdLeaf, []), [1])
            && r.value.output == [Field(StringType, 20, "name")]
  {
    var q := EmpQueryOn(op);
    PointQueryLeaves(text, op);
    PointQueryPending(op);
    assert JoinPrefix(EmpCatalog, q.tables, [EmpIdLeaf], 1) == Success(Joined(EmpIdLeaf, EmpSchema));
    assert FilterChain(EmpIdLeaf, [[]]) == Filter(EmpIdLeaf, []);
    PointQueryColumns();
    CompileFromStages(NamesAField(text), EmpCatalog, q, [EmpIdLeaf], Joined(EmpIdLeaf, EmpSchema), [1]);
    assert Projections.Pick(EmpSchema, [1]) == [EmpSchema[1]];
  }

  /** The push-down of `id <op> 2` on Emp: its leaf is the key scan on 2. */
  lemma PointQueryLeaves(text: Predicate -> string, op: CompOp)
    ensures AllExist(EmpCatalog, EmpQueryOn(op).tables)
    ensures PushDownFrom(NamesAField(text), EmpCatalog, EmpQueryOn(op).tables, ColumnIndexes(EmpCatalog, EmpQueryOn(op).tables),
                         Concat(EmpQueryOn(op).groups), 0, {}).leaves == [EmpIdLeaf]
  {
    var env := NamesAField(text);
    var q := EmpQueryOn(op);
    var p := IdVs2(op);
    assert FirstMissing(EmpCatalog, q.tables).None?;
    assert Concat(q.groups) == [p];
    var colIdx := ColumnIndexes(EmpCatalog, q.tables);
    assert colIdx == map["id" := IndexDesc("EmpId", "id")];
    assert FieldNumber(EmpSchema, "id") == Some(0);
    assert env.validate(p, EmpSchema);
    var pass := PushPass(env, "Emp", EmpSchema, colIdx, [p], Scan("Emp"), {});
    assert Pushable(env, EmpSchema, {}, p);
    var rest := PushPass(env, "Emp", EmpSchema, colIdx, [], PushedLeaf("Emp", colIdx, p), {} + {env.text(p)});
    assert [p][1..] == [] && rest.pushed == [];
    assert pass.pushed == [p] + rest.pushed;
    PushPassShape(env, "Emp", EmpSchema, colIdx, [p], Scan("Emp"), {});
  }

  /** The pending group of `id <op> 2` is empty once the predicate has left. */
  lemma PointQueryPending(op: CompOp)
    ensures PendingGroups(EmpQueryOn(op).groups, 1) == [[]]
  {
    PendingAreColumnComparisons(EmpQueryOn(op).groups, 1);
    assert ColumnComparisons([IdVs2(op)]) == [];
  }

  /** The corrected access path for `id > 2` on Emp is a Filter applying the
      comparison over the scan, not the key scan on 2. */
  lemma RangeKeepsComparison()
    ensures var colIdx := map["id" := IndexDesc("EmpId", "id")];
            && PushedLeaf("Emp", colIdx, IdVs2(Gt)) == EmpIdLeaf
            && EqualityLeaf("Emp", colIdx, IdVs2(Gt)) == Filter(Scan("Emp"), [IdVs2(Gt)])
            && EqualityLeaf("Emp", colIdx, IdIs2) == EmpIdLeaf
  {
    EqualityLeafKeepsOperator("Emp", map["id" := IndexDesc("EmpId", "id")], IdVs2(Gt));
  }

  /** The projection list of `IndexedPointQuery`: `name` is field 1. */
  lemma PointQueryColumns()
    ensures ProjectionList(EmpSchema, EmpQuery.columns) == Success([1])
  {
    var cols := EmpQuery.columns;
    assert FieldNumber(EmpSchema, cols[0]) == Some(1);
    assert Positions(EmpSchema, cols[1..]) == Success([]);
    assert Positions(EmpSchema, cols).value == [1];
  }

  /** Table A(x, y) with no index and 5 rows, for `LastPushWins`. */
  const SchemaXY := [Field(IntegerType, 4, "x"), Field(IntegerType, 4, "y")]
  const CatalogXY := Catalog(map["A" := TableInfo(SchemaXY, [])], [RelRow("A", 5)])
  const XIs1 := Predicate(Eq, ColName, StrValue("x"), IntegerType, IntValue(1))
  const YIs2 := Predicate(Eq, ColName, StrValue("y"), IntegerType, IntValue(2))
  /** `SELECT * FROM A WHERE x = 1 AND y = 2`, one group per conjunct. */
  const QueryXY := Query(["A"], [], [[XIs1], [YIs2]])

  /** A validator that accepts every predicate. */
  function AcceptAll(text: Predicate -> string): Env {
    Env((p: Predicate, s: Schema) => true, text)
  }

  /** `SELECT * FROM A WHERE x = 1 AND y = 2` with no index on A: both predicates
      are pushed to A, but each push wraps A's original scan, so the leaf keeps
      only `y = 2`; both leave the pending groups, and `x = 1` appears nowhere in
      the plan. */
  lemma LastPushWins(text: Predicate -> string)
    requires text(XIs1) != text(YIs2)
    ensures var r := Compile(AcceptAll(text), CatalogXY, QueryXY);
            && r.Success?
            && r.value.leaves == [Filter(Scan("A"), [YIs2])]
            && r.value.filtered == Filter(Filter(Scan("A"), [YIs2]), [])
  {
    var leaf := Filter(Scan("A"), [YIs2]);
    LastPushLeaves(text);
    LastPushPending();
    assert JoinPrefix(CatalogXY, QueryXY.tables, [leaf], 1) == Success(Joined(leaf, SchemaXY));
    var rest: seq<seq<Predicate>> := [[], []][1..];
    assert rest == [[]] && rest[1..] == [];
    assert FilterChain(leaf, [[], []]) == Filter(leaf, []);
    assert ProjectionList(SchemaXY, []) == Success(Identity(2));
    CompileFromStages(AcceptAll(text), CatalogXY, QueryXY, [leaf], Joined(leaf, SchemaXY), Identity(2));
  }

  /** The same statement with the corrected leaf: both pushed conjuncts are
      applied, `x = 1` innermost. */
  lemma StackedKeepsBothConjuncts(text: Predicate -> string)
    requires text(XIs1) != text(YIs2)
    ensures var pass := PushPass(AcceptAll(text), "A", SchemaXY, NoIndexes, [XIs1, YIs2], Scan("A"), {});
            StackedLeaf("A", NoIndexes, pass.pushed) == Filter(Filter(Scan("A"), [XIs1]), [YIs2])
  {
    TwoPushes(AcceptAll(text), SchemaXY, XIs1, YIs2);
    StackedLeafKeepsEveryPush("A", NoIndexes, [XIs1, YIs2]);
    var layers := Singletons([XIs1, YIs2]);
    assert layers == [[XIs1], [YIs2]];
    assert layers[..1] == [[XIs1]] && [[XIs1]][..0] == [];
  }

  /** The push-down of `LastPushWins`: A's leaf is the Filter of the last push. */
  lemma LastPushLeaves(text: Predicate -> string)
    requires text(XIs1) != text(YIs2)
    ensures AllExist(CatalogXY, QueryXY.tables)
    ensures PushDownFrom(AcceptAll(text), CatalogXY, QueryXY.tables, ColumnIndexes(CatalogXY, QueryXY.tables),
                         Concat(QueryXY.groups), 0, {}).leaves == [Filter(Scan("A"), [YIs2])]
  {
    var q := QueryXY;
    assert FirstMissing(CatalogXY, q.tables).None?;
    assert q.groups[1..] == [[YIs2]] && q.groups[1..][1..] == [];
    assert Concat(q.groups[1..]) == [YIs2];
    assert Concat(q.groups) == [XIs1, YIs2];
    assert ColumnIndexes(CatalogXY, q.tables) == NoIndexes;
    TwoPushes(AcceptAll(text), SchemaXY, XIs1, YIs2);
  }

  /** The pending groups of `LastPushWins`: both predicates have left. */
  lemma LastPushPending()
    ensures PendingGroups(QueryXY.groups, 1) == [[], []]
  {
    PendingAreColumnComparisons(QueryXY.groups, 1);
    assert ColumnComparisons([XIs1]) == [] && ColumnComparisons([YIs2]) == [];
  }

  const NoIndexes: map<string, IndexDesc> := map[]

  /** The pass of `LastPushWins` over table A, on its own. */
  lemma TwoPushes(env: Env, schema: Schema, x1: Predicate, y2: Predicate)
    requires IsLiteral(x1.rtype) && IsLiteral(y2.rtype) && env.validate(x1, schema) && env.validate(y2, schema)
    requires env.text(x1) != env.text(y2)
    ensures PushPass(env, "A", schema, NoIndexes, [x1, y2], Scan("A"), {}).pushed == [x1, y2]
    ensures PushPass(env, "A", schema, NoIndexes, [x1, y2], Scan("A"), {}).leaf == Filter(Scan("A"), [y2])
  {
    var second := PushPass(env, "A", schema, NoIndexes, [y2], PushedLeaf("A", NoIndexes, x1), {env.text(x1)});
    assert Pushable(env, schema, {env.text(x1)}, y2);
    var last := PushPass(env, "A", schema, NoIndexes, [], PushedLeaf("A", NoIndexes, y2), {env.text(x1)} + {env.text(y2)});
    assert [y2][1..] == [] && last.pushed == [];
    assert second.pushed == [y2] + last.pushed;
    assert [x1, y2][1..] == [y2];
    assert Pushable(env, schema, {}, x1);
    assert {} + {env.text(x1)} == {env.text(x1)};
    PushPassShape(env, "A", schema, NoIndexes, [x1, y2], Scan("A"), {});
  }
}

=== FILE: selections.dfy ===
/** The Selection operator: a child cursor, a list of predicates, a cached
    lookahead tuple and a closed flag. `HasNext` may pull tuples from the child
    and park the one it found in the cache; `GetNext` serves the cache first.
    A tuple passes when the list is empty or when ANY predicate holds of it. */
module Selections {
  import opened Wrappers
  import opened Relational
  import opened Cursors

  datatype Selection = Selection(child: Cursor, preds: seq<Predicate>, cache: Option<Tuple>, closed: bool)

  /** Some predicate of the list holds of `t`. */
  predicate AnyHolds(eval: Evaluator, preds: seq<Predicate>, t: Tuple) {
    exists i :: 0 <= i < |preds| && eval(preds[i], t)
  }

  /** The operator lets `t` through: always with no predicates, otherwise when
      any predicate holds. */
  predicate Passes(eval: Evaluator, preds: seq<Predicate>, t: Tuple) {
    |preds| == 0 || AnyHolds(eval, preds, t)
  }

  /** Reference semantics: the tuples of `ts` that pass, in their order. */
  function Matching(eval: Evaluator, preds: seq<Predicate>, ts: seq<Tuple>): seq<Tuple> {
    if |ts| == 0 then []
    else (if Passes(eval, preds, ts[0]) then [ts[0]] else []) + Matching(eval, preds, ts[1..])
  }

  /** `xs` is `ys` with some elements dropped and the rest in order. */
  predicate SubsequenceOf<T(==)>(xs: seq<T>, ys: seq<T>)
    decreases |ys|
  {
    if |xs| == 0 then true
    else if |ys| == 0 then false
    else if xs[0] == ys[0] then SubsequenceOf(xs[1..], ys[1..])
    else SubsequenceOf(xs, ys[1..])
  }

  function CacheSeq(cache: Option<Tuple>): seq<Tuple> {
    if cache.Some? then [cache.value] else []
  }

  /** What the operator still has to hand out: the cached tuple, then the passing
      tuples of the rest of the child. */
  function Pending(eval: Evaluator, s: Selection): seq<Tuple>
    requires s.child.Valid()
  {
    CacheSeq(s.cache) + Matching(eval, s.preds, s.child.Remaining())
  }

  /** The constructor: an open operator with an empty cache. */
  function Construct(child: Cursor, preds: seq<Predicate>): (s: Selection)
    ensures IsOpen(s) && s.child == child && s.preds == preds && s.cache.None?
  {
    Selection(child, preds, None, false)
  }

  predicate IsOpen(s: Selection) {
    !s.closed
  }

  /** The passing tuples of a cursor: its head if it passes, then those after it. */
  lemma MatchingStep(eval: Evaluator, preds: seq<Predicate>, c: Cursor)
    requires c.Valid() && c.HasNext()
    ensures Matching(eval, preds, c.Remaining())
         == (if Passes(eval, preds, c.Head()) then [c.Head()] else []) + Matching(eval, preds, c.Next().Remaining())
  {
    var rest := c.Remaining();
    assert rest[0] == c.Head() && rest[1..] == c.Next().Remaining();
  }

  /** The search loop of `hasNext`: it parks every tuple it pulls in the cache and
      stops at the first that satisfies a predicate; with no predicates it answers
      true without pulling anything; at the end of the child it clears the cache. */
  function Seek(eval: Evaluator, preds: seq<Predicate>, c: Cursor, cache: Option<Tuple>): (r: (bool, Cursor, Option<Tuple>))
    requires c.Valid()
    ensures r.1.Valid() && r.1.schema == c.schema && r.1.tuples == c.tuples && r.1.open == c.open
    ensures r.0 == (|Matching(eval, preds, c.Remaining())| > 0)
    ensures r.0 && |preds| == 0 ==> r.1 == c && r.2 == cache
    ensures r.0 && |preds| > 0 ==>
              r.2.Some? && Matching(eval, preds, c.Remaining()) == [r.2.value] + Matching(eval, preds, r.1.Remaining())
    ensures !r.0 ==> r.2.None? && !r.1.HasNext()
    decreases |c.tuples| - c.pos
  {
    if c.HasNext() then
      if |preds| == 0 then
        MatchingStep(eval, preds, c);
        (true, c, cache)
      else
        var t := c.Head();
        MatchingStep(eval, preds, c);
        if AnyHolds(eval, preds, t) then (true, c.Next(), Some(t))
        else Seek(eval, preds, c.Next(), Some(t))
    else
      (false, c, None)
  }

  /** `hasNext`: true at once when a tuple is cached, otherwise the search loop. */
  function HasNext(eval: Evaluator, s: Selection): (r: (bool, Selection))
    requires s.child.Valid()
    ensures r.1.child.Valid() && r.1.child.tuples == s.child.tuples
    ensures r.1.preds == s.preds && r.1.closed == s.closed
    ensures r.0 == (|Pending(eval, s)| > 0)
    ensures Pending(eval, r.1) == Pending(eval, s)
    ensures r.0 && |s.preds| > 0 ==> r.1.cache.Some?
    ensures !r.0 ==> r.1.cache.None? && !r.1.child.HasNext()
  {
    if s.cache.Some? then (true, s)
    else
      var sought := Seek(eval, s.preds, s.child, s.cache);
      (sought.0, s.(child := sought.1, cache := sought.2))
  }

  /** The search loop of `getNext`: the next child tuple that passes, or None
      (Java null) when the child runs out. */
  function Fetch(eval: Evaluator, preds: seq<Predicate>, c: Cursor): (r: (Option<Tuple>, Cursor))
    requires c.Valid()
    ensures r.1.Valid() && r.1.schema == c.schema && r.1.tuples == c.tuples && r.1.open == c.open
    ensures |Matching(eval, preds, c.Remaining())| > 0 ==>
              r.0.Some? && Matching(eval, preds, c.Remaining()) == [r.0.value] + Matching(eval, preds, r.1.Remaining())
    ensures |Matching(eval, preds, c.Remaining())| == 0 ==> r.0.None? && !r.1.HasNext()
    decreases |c.tuples| - c.pos
  {
    if c.HasNext() then
      var t := c.Head();
      MatchingStep(eval, preds, c);
      if |preds| == 0 then (Some(t), c.Next())
      else if AnyHolds(eval, preds, t) then (Some(t), c.Next())
      else Fetch(eval, preds, c.Next())
    else
      (None, c)
  }

  /** When the head of `c` does not pass, a search from the next tuple that met
      no passing tuple before stopping at `stop` met none from the head either. */
  lemma PastFailingHead(eval: Evaluator, preds: seq<Predicate>, c: Cursor, stop: int)
    requires c.Valid() && c.HasNext() && !Passes(eval, preds, c.Head()) && stop <= |c.tuples|
    requires forall j :: c.pos + 1 <= j < stop - 1 ==> !Passes(eval, preds, c.tuples[j])
    ensures forall j :: c.pos <= j < stop - 1 ==> !Passes(eval, preds, c.tuples[j])
  {
  }

  /** The `hasNext` loop with predicates stops just past the first passing tuple
      and caches it, having pulled only tuples that do not pass before it. */
  lemma {:induction false} SeekStopsPastMatch(eval: Evaluator, preds: seq<Predicate>, c: Cursor, cache: Option<Tuple>)
    requires c.Valid()
    ensures var r := Seek(eval, preds, c, cache);
            r.0 && |preds| > 0 ==>
              && c.pos < r.1.pos && r.2 == Some(c.tuples[r.1.pos - 1]) && Passes(eval, preds, r.2.value)
              && forall j :: c.pos <= j < r.1.pos - 1 ==> !Passes(eval, preds, c.tuples[j])
    decreases |c.tuples| - c.pos
  {
    if c.HasNext() && |preds| > 0 {
      var t := c.Head();
      if AnyHolds(eval, preds, t) {
        assert Seek(eval, preds, c, cache) == (true, c.Next(), Some(t));
      } else {
        var r := Seek(eval, preds, c.Next(), Some(t));
        assert Seek(eval, preds, c, cache) == r;
        SeekStopsPastMatch(eval, preds, c.Next(), Some(t));
        if r.0 {
          PastFailingHead(eval, preds, c, r.1.pos);
        }
      }
    }
  }

  /** The `getNext` loop stops just past the tuple it returns, having pulled only
      tuples that do not pass before it. */
  lemma {:induction false} FetchStopsPastMatch(eval: Evaluator, preds: seq<Predicate>, c: Cursor)
    requires c.Valid()
    ensures var r := Fetch(eval, preds, c);
            r.0.Some? ==>
              && c.pos < r.1.pos && r.0.value == c.tuples[r.1.pos - 1] && Passes(eval, preds, r.0.value)
              && forall j :: c.pos <= j < r.1.pos - 1 ==> !Passes(eval, preds, c.tuples[j])
    decreases |c.tuples| - c.pos
  {
    if c.HasNext() {
      var t := c.Head();
      if |preds| == 0 || AnyHolds(eval, preds, t) {
        assert Fetch(eval, preds, c) == (Some(t), c.Next());
      } else {
        var r := Fetch(eval, preds, c.Next());
        assert Fetch(eval, preds, c) == r;
        FetchStopsPastMatch(eval, preds, c.Next());
        if r.0.Some? {
          PastFailingHead(eval, preds, c, r.1.pos);
        }
      }
    }
  }

  /** A cached tuple comes first, before the passing tuples of the child. */
  lemma PendingOfCache(eval: Evaluator, s: Selection)
    requires s.child.Valid() && s.cache.Some?
    ensures Pending(eval, s) == [s.cache.value] + Pending(eval, s.(cache := None))
  {
  }

  /** With nothing cached, what is pending is what passes in the rest of the child. */
  lemma PendingOfChild(eval: Evaluator, s: Selection)
    requires s.child.Valid() && s.cache.None?
    ensures Pending(eval, s) == Matching(eval, s.preds, s.child.Remaining())
  {
    assert CacheSeq(s.cache) == [];
  }

  /** `getNext`: hands out and clears the cached tuple if there is one, otherwise
      searches the child. */
  function GetNext(eval: Evaluator, s: Selection): (r: (Option<Tuple>, Selection))
    requires s.child.Valid()
    ensures r.1.child.Valid() && r.1.child.tuples == s.child.tuples
    ensures r.1.preds == s.preds && r.1.closed == s.closed && r.1.cache.None?
    ensures |Pending(eval, s)| > 0 ==> r.0.Some? && Pending(eval, s) == [r.0.value] + Pending(eval, r.1)
    ensures |Pending(eval, s)| == 0 ==> r.0.None? && Pending(eval, r.1) == []
  {
    if s.cache.Some? then
      PendingOfCache(eval, s);
      (s.cache, s.(cache := None))
    else
      var fetched := Fetch(eval, s.preds, s.child);
      var s' := s.(child := fetched.1);
      PendingOfChild(eval, s);
      PendingOfChild(eval, s');
      (fetched.0, s')
  }

  /** `close`: closes the child and marks the operator closed. */
  function Close(s: Selection): (r: Selection)
    requires s.child.Valid()
    ensures r.child.Valid() && !IsOpen(r) && !r.child.open
    ensures r.preds == s.preds && r.cache == s.cache && r.child.Remaining() == s.child.Remaining()
    ensures r.child.tuples == s.child.tuples && r.child.schema == s.child.schema
  {
    s.(child := s.child.Close(), closed := true)
  }

  /** `restart`, as written: re-opens the child from its start and marks the
      operator open, but keeps whatever tuple is cached. */
  function Restart(s: Selection): (r: Selection)
    requires s.child.Valid()
    ensures r.child.Valid() && IsOpen(r) && r.child.open && r.child.Remaining() == s.child.tuples
    ensures r.preds == s.preds && r.cache == s.cache
    ensures r.child.tuples == s.child.tuples && r.child.schema == s.child.schema
    ensures r == RestartFresh(s).(cache := s.cache)
  {
    s.(child := s.child.Restart(), closed := false)
  }

  /** `restart` as its documentation describes it ("as if it were just
      constructed"): the cache is cleared as well. */
  function RestartFresh(s: Selection): (r: Selection)
    requires s.child.Valid()
    ensures r == Construct(s.child.Restart(), s.preds)
  {
    Selection(s.child.Restart(), s.preds, None, false)
  }

  /** Drains the operator the way a consumer does: `hasNext`, then `getNext`,
      until `hasNext` answers false. */
  function Run(eval: Evaluator, s: Selection): seq<Tuple>
    requires s.child.Valid()
    decreases |Pending(eval, s)|
  {
    var probe := HasNext(eval, s);
    if !probe.0 then []
    else
      var step := GetNext(eval, probe.1);
      [step.0.value] + Run(eval, step.1)
  }

  // ---------------------------------------------------------------------------
  // Lemmas

  /** Draining through the hasNext/getNext protocol yields exactly the pending
      tuples: the cached one first, then the passing rest of the child. */
  lemma {:induction false} RunYieldsPending(eval: Evaluator, s: Selection)
    requires s.child.Valid()
    ensures Run(eval, s) == Pending(eval, s)
    decreases |Pending(eval, s)|
  {
    var probe := HasNext(eval, s);
    if probe.0 {
      var step := GetNext(eval, probe.1);
      RunYieldsPending(eval, step.1);
    }
  }

  /** A freshly constructed operator yields the passing tuples of its child. */
  lemma RunOfFresh(eval: Evaluator, c: Cursor, preds: seq<Predicate>)
    requires c.Valid()
    ensures Run(eval, Construct(c, preds)) == Matching(eval, preds, c.Remaining())
  {
    RunYieldsPending(eval, Construct(c, preds));
  }

  /** With no predicates the operator is the identity on its child. */
  lemma {:induction false} MatchingWithoutPredicates(eval: Evaluator, ts: seq<Tuple>)
    ensures Matching(eval, [], ts) == ts
  {
    if |ts| > 0 {
      MatchingWithoutPredicates(eval, ts[1..]);
    }
  }

  /** A tuple is in the output exactly when it is in the input and passes; with
      predicates present, passing means at least one predicate holds. */
  lemma {:induction false} MatchingMembership(eval: Evaluator, preds: seq<Predicate>, ts: seq<Tuple>, t: Tuple)
    ensures t in Matching(eval, preds, ts) <==> t in ts && Passes(eval, preds, t)
  {
    if |ts| > 0 {
      MatchingMembership(eval, preds, ts[1..], t);
      assert ts == [ts[0]] + ts[1..];
    }
  }

  /** The output keeps the input's order. */
  lemma {:induction false} MatchingIsSubsequence(eval: Evaluator, preds: seq<Predicate>, ts: seq<Tuple>)
    ensures SubsequenceOf(Matching(eval, preds, ts), ts)
  {
    if |ts| > 0 {
      MatchingIsSubsequence(eval, preds, ts[1..]);
      var rest := Matching(eval, preds, ts[1..]);
      if Passes(eval, preds, ts[0]) {
        assert Matching(eval, preds, ts) == [ts[0]] + rest;
        assert ([ts[0]] + rest)[1..] == rest;
      } else {
        assert Matching(eval, preds, ts) == rest;
        SkipHead(rest, ts);
      }
    }
  }

  /** Dropping the head of the longer sequence keeps a subsequence relation. */
  lemma {:induction false} SkipHead<T>(xs: seq<T>, ys: seq<T>)
    requires |ys| > 0 && SubsequenceOf(xs, ys[1..])
    ensures SubsequenceOf(xs, ys)
    decreases |xs| + |ys|
  {
    if |xs| > 0 && xs[0] == ys[0] {
      // SubsequenceOf(xs, ys) reduces to SubsequenceOf(xs[1..], ys[1..]).
      SubsequenceTail(xs, ys[1..]);
    }
  }

  /** Removing the head of the shorter sequence keeps a subsequence relation. */
  lemma {:induction false} SubsequenceTail<T>(xs: seq<T>, ys: seq<T>)
    requires |xs| > 0 && SubsequenceOf(xs, ys)
    ensures SubsequenceOf(xs[1..], ys)
    decreases |xs| + |ys|
  {
    assert |ys| > 0;
    if xs[0] == ys[0] {
      SkipHead(xs[1..], ys);
    } else {
      SubsequenceTail(xs, ys[1..]);
      SkipHead(xs[1..], ys);
    }
  }

  /** Calling `hasNext` twice in a row answers the same and pulls nothing more. */
  lemma HasNextIsIdempotent(eval: Evaluator, s: Selection)
    requires s.child.Valid()
    ensures HasNext(eval, HasNext(eval, s).1) == HasNext(eval, s)
  {
  }

  /** After `hasNext` found and cached a tuple, `getNext` returns exactly that
      tuple and clears the cache without touching the child. */
  lemma GetNextServesLookahead(eval: Evaluator, s: Selection)
    requires s.child.Valid() && s.cache.None? && |s.preds| > 0
    requires HasNext(eval, s).0
    ensures var s1 := HasNext(eval, s).1;
            && s1.cache == Some(Pending(eval, s)[0])
            && GetNext(eval, s1) == (s1.cache, s1.(cache := None))
  {
  }

  /** Finding, as written: a `restart` right after a successful `hasNext` keeps
      the cached tuple and re-reads the child, so the tuple comes out twice. */
  lemma RestartRepeatsLookahead()
    ensures var eval: Evaluator := (p, t) => true;
            var t: Tuple := [IntValue(7)];
            var c := Open([Field(IntegerType, 4, "a")], [t]);
            var s := HasNext(eval, Construct(c, [AlwaysTrue])).1;
            && Matching(eval, [AlwaysTrue], c.tuples) == [t]
            && Run(eval, Restart(s)) == [t, t]
  {
    var eval: Evaluator := (p, t) => true;
    var t: Tuple := [IntValue(7)];
    var c := Open([Field(IntegerType, 4, "a")], [t]);
    var s := HasNext(eval, Construct(c, [AlwaysTrue])).1;
    assert [AlwaysTrue][0] == AlwaysTrue && eval(AlwaysTrue, t);
    assert AnyHolds(eval, [AlwaysTrue], t);
    assert c.tuples == [t] && [t][1..] == [];
    assert Matching(eval, [AlwaysTrue], c.tuples) == [t];
    RunYieldsPending(eval, Restart(s));
  }

  /** Corrected: after `RestartFresh` the operator replays its child exactly as a
      newly constructed one would. */
  lemma RestartFreshReplays(eval: Evaluator, s: Selection)
    requires s.child.Valid()
    ensures Run(eval, RestartFresh(s)) == Matching(eval, s.preds, s.child.tuples)
    ensures Run(eval, RestartFresh(s)) == Run(eval, Construct(s.child.Restart(), s.preds))
  {
    RunOfFresh(eval, s.child.Restart(), s.preds);
  }
}

=== FILE: wrappers.dfy ===
/** Failure-compatible wrappers: `Option` stands for a Java reference that may be
    null, `Result` for a value or the exception that replaced it. */
module Wrappers {

  datatype Option<+T> = None | Some(value: T)

  datatype Result<+T, +E> = Success(value: T) | Failure(error: E) {

    predicate IsFailure() {
      Failure?
    }

    function PropagateFailure<U>(): Result<U, E>
      requires Failure?
    {
      Failure(error)
    }

    function Extract(): T
      requires Success?
    {
      value
    }
  }
}
